=== FILE: README.md ===
# WebApiCacheViaRedis in Dafny

A model of the core of WebApiCacheViaRedis, a read-through response cache for ASP.NET Core Web API actions backed by Redis. An action filter decides whether an action's response is cached. It builds a lower-case Redis key from the service name, HTTP method, route template, action arguments and (optionally) the query string. It then serves the response through `RedisManager.GetOrAddAsync`:

- Read the key.
- On a miss, take a per-key lock and read again.
- Run the action.
- Store its string through a null/empty sentinel codec.
- Track the key.

Invalidation goes through a reverse index, `RedisKeyRelationships`. It maps each entity type and each dependency route to the keys that declared it. Saving an entity type resets its keys. Resetting a key publishes the key's own route on a pub/sub channel. Every instance listening on the channel resets the keys that depend on that route, so resets cascade. A timer can also sweep tracked keys whose expiry has passed.

The model is a sequential, functional state machine:

- **State.** A `Manager.State` holds five parts:
  - the Redis store (`map<string, Stored>`);
  - the tracked-request dictionary;
  - both buckets of the reverse index;
  - an outbox of published routes;
  - whether the manager instance exists.
- **Bus.** Delivering a published route is an explicit step (`DeliverNext`).
- **GetOrAdd.** `GetOrAddAsync` is split at the lock:
  - `BeginGetOrAdd` covers everything before the lock.
  - `FinishGetOrAdd` covers everything inside it.

  The split lets two interleaved callers be stated sequentially (`SingleFlight`).
- **Parameters.** The action's result, the clock, the JSON serialiser and the culture string order are all parameters.

Modules, following the source files:

| module | file | source |
|---|---|---|
| `Wrappers` | wrappers.dfy | `Option`, standing for C# `null` |
| `Text` | text.dfy | the .NET string primitives the code relies on |
| `Sorting` | sorting.dfy | the stable `OrderBy` used on the query |
| `Extensions` | extensions.dfy | Extensions.cs |
| `CacheKey` | cache_key.dfy | RedisCacheKey.cs |
| `ResetBy` | reset_by.dfy | RedisCacheResetBy.cs |
| `MutableItems` | mutable_item.dfy | MutableItem.cs |
| `Settings` | settings.dfy | RedisCacheSettings.cs, GlobalVars.cs |
| `Attribute` | attribute.dfy | RedisCacheAttribute.cs |
| `KeyRelationships` | relationships.dfy | RedisKeyRelationships.cs |
| `Manager` | manager.dfy | RedisManager.cs |
| `Filter` | filter.dfy | RedisCacheFilter.cs |
| `Corrected` | corrected.dfy | the three defects under Findings, as written and repaired |

## Model

| member | source | states |
|---|---|---|
| Text.TrimEndSlash | src/Dao.WebApiCacheViaRedis/RedisCacheKey.cs:23 | `TrimEnd('/')`: the result is a prefix of the input that does not end in '/', and only '/' characters were removed |
| Text.TrimEndSlashAbsorbs | src/Dao.WebApiCacheViaRedis/RedisCacheKey.cs:23 | trailing slashes appended to a string are all trimmed away again |
| Text.LowerIsLower | src/Dao.WebApiCacheViaRedis/RedisCacheKey.cs:23 | `ToLowerInvariant` yields a lower-case string and is idempotent |
| Text.LowerConcat | src/Dao.WebApiCacheViaRedis/RedisCacheKey.cs:30 | lower-casing distributes over concatenation |
| Sorting.SortBy | src/Dao.WebApiCacheViaRedis/RedisCacheKey.cs:28 | `OrderBy` returns a permutation of its input |
| Sorting.SortBySorted | src/Dao.WebApiCacheViaRedis/RedisCacheKey.cs:28 | under a total order, `OrderBy`'s result is sorted by the key |
| Sorting.SortedUnique | src/Dao.WebApiCacheViaRedis/RedisCacheKey.cs:28 | two sorted permutations of one list whose keys are distinct are equal |
| Sorting.SortByPermutation | src/Dao.WebApiCacheViaRedis/RedisCacheKey.cs:28 | sorting any permutation of a list with distinct keys gives the same result |
| Extensions.StringValue | src/Dao.WebApiCacheViaRedis/Extensions.cs:85-96 | a missing value decodes to null; either sentinel, in any casing, decodes to null or ""; any other text decodes to itself |
| Extensions.ToRedisValue | src/Dao.WebApiCacheViaRedis/Extensions.cs:98-103 | the stored text is never empty or whitespace, and it is one of the two sentinels or the input itself |
| Extensions.NullRoundTrip | src/Dao.WebApiCacheViaRedis/Extensions.cs:82-100 | null encodes to "RedisValueStringNull", which decodes back to null |
| Extensions.BlankCollapses | src/Dao.WebApiCacheViaRedis/Extensions.cs:83-102 | every blank non-null string encodes to "RedisValueStringEmpty" and decodes to "", so whitespace-only strings do not round-trip |
| Extensions.RoundTrip | src/Dao.WebApiCacheViaRedis/Extensions.cs:85-103 | decode(encode(s)) == s exactly when s is null, "", or neither blank nor a sentinel in any casing |
| Extensions.In | src/Dao.WebApiCacheViaRedis/Extensions.cs:74-78 | false for a null or empty argument list, membership otherwise |
| Extensions.InWith | src/Dao.WebApiCacheViaRedis/Extensions.cs:76 | membership under the given comparer, or under equality when it is null |
| Extensions.IsNullOrEmpty | src/Dao.WebApiCacheViaRedis/Extensions.cs:74 | false exactly when the sequence is non-null and has some element (`Any()`) |
| Extensions.IsVoidOrTask | src/Dao.WebApiCacheViaRedis/Extensions.cs:62 | true exactly for `void`, `Task` and `ValueTask` |
| Extensions.GetTypeOrTaskGenericType | src/Dao.WebApiCacheViaRedis/Extensions.cs:64-65 | `Task<T>` and `ValueTask<T>` unwrap to `T`, one level only; every other type is returned unchanged |
| Extensions.IsSubclassOf | src/Dao.WebApiCacheViaRedis/Extensions.cs:67 | `object` derives from nothing, everything else derives from `object`, a class derives from its base, and no type derives from itself |
| Extensions.IsClassOf | src/Dao.WebApiCacheViaRedis/Extensions.cs:67 | every type is a class of itself and of `object`; `object` is a class of `object` only |
| Extensions.IsClassOfAntisymmetric | src/Dao.WebApiCacheViaRedis/Extensions.cs:67 | two types that are each a class of the other are the same type |
| Extensions.IsClassOfTransitive | src/Dao.WebApiCacheViaRedis/Extensions.cs:67 | `IsClassOf` is transitive along the class hierarchy |
| Extensions.ToJson | src/Dao.WebApiCacheViaRedis/Extensions.cs:56 | null for a null source, otherwise the serialiser's output |
| Extensions.MergeAttributes | src/Dao.WebApiCacheViaRedis/Extensions.cs:28-34 | the action's attribute groups come first and unchanged; a controller group is added exactly when the action has no group of its type |
| Extensions.ActionAttributeFirst | src/Dao.WebApiCacheViaRedis/Extensions.cs:28-36 | when the action declares an attribute, the first merged attribute is the action's first |
| Extensions.ControllerFallback | src/Dao.WebApiCacheViaRedis/Extensions.cs:27-36 | when the action declares no attribute, the merged list is the controller's attributes of the types the action does not declare |
| Extensions.ControllerOnlyNoTypes | src/Dao.WebApiCacheViaRedis/Extensions.cs:30-33 | an action declaring no attribute type keeps every controller group |
| Extensions.FlattenConcat | src/Dao.WebApiCacheViaRedis/Extensions.cs:36 | `SelectMany` distributes over concatenation |
| CacheKey.CreateRouteKey | src/Dao.WebApiCacheViaRedis/RedisCacheKey.cs:23 | the route key is non-empty, lower-case and never ends with '/' |
| CacheKey.RouteKey | src/Dao.WebApiCacheViaRedis/RedisCacheKey.cs:22 | a blank route is returned unchanged; otherwise the result is a lower-case route key |
| CacheKey.TrailingSlashIrrelevant | src/Dao.WebApiCacheViaRedis/RedisCacheKey.cs:23 | a route with and without trailing slashes gives the same route key |
| CacheKey.RouteKeyIgnoresCase | src/Dao.WebApiCacheViaRedis/RedisCacheKey.cs:23 | service, method and route that differ only in letter case give the same route key |
| CacheKey.ParseQuery | src/Dao.WebApiCacheViaRedis/RedisCacheKey.cs:28 | no query part exactly for a null or empty query; otherwise the part starts with '$' |
| CacheKey.ToString | src/Dao.WebApiCacheViaRedis/RedisCacheKey.cs:30 | the key is lower-case and always starts with the route key and '$', even for a blank route |
| CacheKey.KeyExtendsRouteKey | src/Dao.WebApiCacheViaRedis/RedisCacheKey.cs:22-30 | for a non-blank route, the key starts with `RouteKey` and '$' |
| CacheKey.ToStringIgnoresCase | src/Dao.WebApiCacheViaRedis/RedisCacheKey.cs:30 | keys whose parts differ only in letter case, argument values included, are equal |
| CacheKey.NormaliseSorts | src/Dao.WebApiCacheViaRedis/RedisCacheKey.cs:28 | the serialised query is sorted by name, each value list is sorted, and nothing is lost |
| CacheKey.QueryOrderIrrelevant | src/Dao.WebApiCacheViaRedis/RedisCacheKey.cs:28 | permuting the query parameters does not change the normalised query |
| CacheKey.ValueOrderIrrelevant | src/Dao.WebApiCacheViaRedis/RedisCacheKey.cs:28 | permuting the values of one parameter does not change the normalised query |
| CacheKey.ToStringQueryPermutation | src/Dao.WebApiCacheViaRedis/RedisCacheKey.cs:28-30 | permuting the query leaves the Redis key unchanged |
| CacheKey.ArgumentOrderMatters | src/Dao.WebApiCacheViaRedis/RedisCacheKey.cs:30 | argument order is not normalised: a serialiser exists under which reordering two arguments changes the key |
| ResetBy.NewMicroServiceRoute | src/Dao.WebApiCacheViaRedis/RedisCacheResetBy.cs:13-17 | the constructor keeps service, method and route unchanged |
| ResetBy.RouteTag | src/Dao.WebApiCacheViaRedis/RedisCacheResetBy.cs:19 | a dependency tag is non-empty, lower-case and does not end with '/' |
| ResetBy.TagMatchesRouteKey | src/Dao.WebApiCacheViaRedis/RedisCacheResetBy.cs:19 | for a non-blank route, the tag equals the `RouteKey` of a key with the same service, method and route; this is the cascade link |
| ResetBy.TagIgnoresMethodCase | src/Dao.WebApiCacheViaRedis/RedisCacheResetBy.cs:19 | the method's letter case does not change the tag |
| ResetBy.RouteTags | src/Dao.WebApiCacheViaRedis/RedisManager.cs:153 | `Select(s => s.ToString())`: null stays null; otherwise one tag per route, in order |
| MutableItems.NewMutableItem | src/Dao.WebApiCacheViaRedis/MutableItem.cs:8-13 | the value is kept, `CreateTime` is the given time or the clock, and `UpdateTime == CreateTime` |
| MutableItems.EqualityIgnoresTimes | src/Dao.WebApiCacheViaRedis/MutableItem.cs:21-22 | equality and hash depend on the value only |
| MutableItems.ConversionRoundTrip | src/Dao.WebApiCacheViaRedis/MutableItem.cs:24-25 | converting a value to an item and back yields the value |
| MutableItems.ComparerEquals | src/Dao.WebApiCacheViaRedis/MutableItem.cs:32 | false whenever either side is null, both included; otherwise the inner comparer on the values |
| MutableItems.TryAdd | src/Dao.WebApiCacheViaRedis/RedisManager.cs:156 | the key is tracked afterwards; an existing entry is never overwritten, as for the dictionary keyed by value at line 19 |
| MutableItems.TryAddKeepsFirst | src/Dao.WebApiCacheViaRedis/RedisManager.cs:175 | a second `TryAdd` for an equal item with other times, as at line 175 after line 156, changes nothing |
| Settings.NewRedisConfiguration | src/Dao.WebApiCacheViaRedis/RedisCacheSettings.cs:19-24 | by default there is no query in the key, no expiry and no command flags |
| Settings.NewRedisCacheSettings | src/Dao.WebApiCacheViaRedis/RedisCacheSettings.cs:6-17 | by default GET requests are not cached globally, there is no sweep, and the configuration is the default one |
| Settings.GetRedisConfiguration | src/Dao.WebApiCacheViaRedis/RedisCacheSettings.cs:11-16 | the getter never yields null: a default while unset, the stored value otherwise |
| Settings.SetThenGetConfiguration | src/Dao.WebApiCacheViaRedis/RedisCacheSettings.cs:11-16 | reading after a set gives the value set, or the default after setting null |
| Settings.GlobalSettings | src/Dao.WebApiCacheViaRedis/GlobalVars.cs:8-13 | unset global settings read as the defaults |
| Settings.SweepEnabled | src/Dao.WebApiCacheViaRedis/RedisManager.cs:155 | the sweep and pre-read tracking are on exactly when the settings exist and set an interval |
| Attribute.NewAttribute | src/Dao.WebApiCacheViaRedis/RedisCacheAttribute.cs:8-20 | enabled, no configuration, empty reset rules |
| Attribute.NewAttributeWith | src/Dao.WebApiCacheViaRedis/RedisCacheAttribute.cs:12-20 | `Enabled` is the argument, with no configuration and empty reset rules |
| Attribute.GetResetBy | src/Dao.WebApiCacheViaRedis/RedisCacheAttribute.cs:20 | the getter never yields null: empty rules while unset, the stored rules otherwise |
| Attribute.AssignEntityTypes | src/Dao.WebApiCacheViaRedis/RedisCacheAttribute.cs:17-22 | a write through the getter is lost while the field is unset and sticks once it is set |
| Attribute.AssignRoutes | src/Dao.WebApiCacheViaRedis/RedisCacheAttribute.cs:17-22 | likewise for the dependency routes: lost while unset, kept once set, other properties unchanged |
| Attribute.GetterAliasing | src/Dao.WebApiCacheViaRedis/RedisCacheAttribute.cs:17-22 | after a set, reads return the stored rules and writes through the getter persist; while unset, they do not |
| KeyRelationships.Insert | src/Dao.WebApiCacheViaRedis/RedisKeyRelationships.cs:73-80 | `HashSet.Add`: adds exactly the value, changes nothing when it is present, and keeps the set free of duplicates |
| KeyRelationships.Delete | src/Dao.WebApiCacheViaRedis/RedisKeyRelationships.cs:82-89 | `HashSet.Remove`: removes exactly the value and keeps the set free of duplicates |
| KeyRelationships.NewRelationship | src/Dao.WebApiCacheViaRedis/RedisKeyRelationships.cs:16-45 | the request joins the bucket of every listed entity type and route; null lists register nothing and become empty; other requests are untouched |
| KeyRelationships.RemoveRequest | src/Dao.WebApiCacheViaRedis/RedisKeyRelationships.cs:51-67 | the request leaves exactly the buckets the relationship names, other members stay, and the own route is published once when it is not blank |
| KeyRelationships.AddPresentIsNoOp | src/Dao.WebApiCacheViaRedis/RedisKeyRelationships.cs:73-80 | registering a request every named bucket already holds changes no bucket |
| Manager.Remove | src/Dao.WebApiCacheViaRedis/RedisManager.cs:101-105 | untracking a key unlinks it from its relationship's buckets and publishes its route; an untracked key changes nothing |
| Manager.OnResetRequest | src/Dao.WebApiCacheViaRedis/RedisManager.cs:86-99 | the key leaves the store and the tracked map, buckets lose only that key, and its route, if any, is appended to the outbox |
| Manager.OnPubRoute | src/Dao.WebApiCacheViaRedis/RedisManager.cs:73-84 | publishing appends the route to the outbox and changes nothing else |
| Manager.GetOrCreate | src/Dao.WebApiCacheViaRedis/RedisManager.cs:107-127 | afterwards the single instance exists; an existing one is reused, and nothing else changes |
| Manager.DeliverNext | src/Dao.WebApiCacheViaRedis/RedisManager.cs:66-71 | delivering consumes the oldest published route; a blank route resets nothing; otherwise exactly that route's bucket is reset, the store loses exactly those keys, and the remaining messages stay queued ahead of any the resets publish |
| Manager.ResetEffectTrans | src/Dao.WebApiCacheViaRedis/RedisManager.cs:58-61 | two resets in a row reset the union of their keys |
| Manager.ResetAll | src/Dao.WebApiCacheViaRedis/RedisKeyRelationships.cs:104-107 | invoking the reset callback on a list of requests, as here and at lines 123-126, resets exactly those requests |
| Manager.Fresh | src/Dao.WebApiCacheViaRedis/RedisKeyRelationships.cs:97-104 | `Where(removed.Add)` yields each request not yet reset exactly once |
| Manager.DrainEntities | src/Dao.WebApiCacheViaRedis/RedisKeyRelationships.cs:96-111 | across the whole batch each request is reset at most once, and store and tracked map lose exactly the requests reset |
| Manager.DrainClears | src/Dao.WebApiCacheViaRedis/RedisKeyRelationships.cs:99-110 | every listed entity bucket is empty afterwards, and no bucket gains a member |
| Manager.DrainKeeps | src/Dao.WebApiCacheViaRedis/RedisKeyRelationships.cs:99-110 | unlisted entity buckets and route buckets lose only requests that were reset |
| Manager.DrainComplete | src/Dao.WebApiCacheViaRedis/RedisKeyRelationships.cs:99-110 | every request of a listed bucket is reset unless this batch already reset it |
| Manager.DrainPrecise | src/Dao.WebApiCacheViaRedis/RedisKeyRelationships.cs:99-110 | only requests of listed buckets are reset |
| Manager.ResetEntityTypes | src/Dao.WebApiCacheViaRedis/RedisKeyRelationships.cs:91-112 | null is a no-op; otherwise the requests reset are exactly those of the listed buckets, each once; the listed buckets end empty; other buckets lose only reset requests |
| Manager.ResetSubRoute | src/Dao.WebApiCacheViaRedis/RedisKeyRelationships.cs:114-130 | a blank route is a no-op; otherwise exactly the route's bucket is reset, and the bucket ends empty |
| Manager.SubRouteResetIdempotent | src/Dao.WebApiCacheViaRedis/RedisKeyRelationships.cs:114-130 | a second reset of the same route resets nothing |
| Manager.ResetCascades | src/Dao.WebApiCacheViaRedis/RedisManager.cs:66-91 | resetting a key publishes its route, and delivering that message resets every key that depends on the route |
| Manager.Expired | src/Dao.WebApiCacheViaRedis/RedisManager.cs:55-56 | the sweep selects exactly the tracked keys whose `UpdateTime` is before now |
| Manager.NeverExpires | src/Dao.WebApiCacheViaRedis/RedisManager.cs:149-151 | a key tracked without an expiry (`DateTime.MaxValue`) is never selected by the sweep test at line 56 |
| Manager.Sweep | src/Dao.WebApiCacheViaRedis/RedisManager.cs:49-64 | the sweep resets exactly the selected keys, in any order |
| Manager.AfterSaveChanges | src/Dao.WebApiCacheViaRedis/RedisManager.cs:190-196 | nothing happens before the manager instance exists |
| Manager.EntityResetPrecise | src/Dao.WebApiCacheViaRedis/RedisManager.cs:190-196 | after a save, a stored key survives exactly when no bucket of a saved type holds it |
| Manager.TrackedItem | src/Dao.WebApiCacheViaRedis/RedisManager.cs:148-151 | the tracked expiry is `CreateTime + Expiry` when an expiry is set, and `DateTime.MaxValue` otherwise |
| Manager.Register | src/Dao.WebApiCacheViaRedis/RedisManager.cs:148-156 | before the read, the key is filed under every declared entity type and route and other keys' filing is unchanged; with the sweep on the tracked map is exactly `TryAdd` of the key (an existing entry kept, no other entry lost), otherwise it is unchanged |
| Manager.BeginGetOrAdd | src/Dao.WebApiCacheViaRedis/RedisManager.cs:146-162 | every call first registers the key (filed under all declared entity and route buckets, tracked only with the sweep on); a hit then returns the stored text undecoded with nothing else changed; a miss is `Remove` applied after registering, so the key ends untracked, leaves the buckets of its tracked relationship, and that relationship's route, if not blank, is published |
| Manager.FirstMissUnlinksAndPublishes | src/Dao.WebApiCacheViaRedis/RedisManager.cs:153-162 | with the sweep on, a first miss on an untracked key takes it back out of every bucket its reset rules named and publishes its own route when that is not blank |
| Manager.FinishGetOrAdd | src/Dao.WebApiCacheViaRedis/RedisManager.cs:164-182 | an in-lock hit returns the raw text without running the factory; otherwise the encoded value is stored with the configured expiry and flags, the tracked map becomes exactly `TryAdd` of the key, index, outbox and instance are unchanged, and the decoded value is returned; a throwing factory changes nothing |
| Manager.GetOrAdd | src/Dao.WebApiCacheViaRedis/RedisManager.cs:144-184 | the factory runs exactly when the key is missing; null, "" and any non-blank, non-sentinel value come back unchanged; no other key enters or leaves the store |
| Manager.GetOrAddKey | src/Dao.WebApiCacheViaRedis/RedisManager.cs:137-142 | every entry added sits under a lower-case key that starts with the key's route key and '$' |
| Manager.SingleFlight | src/Dao.WebApiCacheViaRedis/RedisManager.cs:158-182 | of two callers that miss before either locks, only the first runs the factory; both get the same value once the second's raw text is decoded |
| Manager.HitThenSaveResets | src/Dao.WebApiCacheViaRedis/RedisManager.cs:153-160 | an entry read on the first try was registered first, so a save of one of its entity types resets it |
| Filter.Eligible | src/Dao.WebApiCacheViaRedis/RedisCacheFilter.cs:19-20 | only actions returning neither void, `Task`, `ValueTask`, `Stream` nor a subclass of `Stream` qualify |
| Filter.StreamsNeverEligible | src/Dao.WebApiCacheViaRedis/RedisCacheFilter.cs:20 | `Stream` and any class derived from it, however deep, never qualify |
| Filter.FirstAttribute | src/Dao.WebApiCacheViaRedis/RedisCacheFilter.cs:24 | the action's own first attribute wins; without one, the first attribute of a controller attribute type the action does not declare (the controller's first, when the action declares nothing); none when neither declares one |
| Filter.ShouldCache | src/Dao.WebApiCacheViaRedis/RedisCacheFilter.cs:25 | with an attribute, caching is exactly its `Enabled`; without one, exactly GET in any casing with `ApplyToAllGetRequests` on |
| Filter.InitializeConfig | src/Dao.WebApiCacheViaRedis/RedisCacheFilter.cs:67-73 | the configuration is enabled, takes the attribute's configuration or else the global one, and its reset rules are empty whatever the attribute declares |
| Filter.BuildKey | src/Dao.WebApiCacheViaRedis/RedisCacheFilter.cs:29-31 | the key carries service, method, template and arguments, and the query only when configured |
| Filter.QueryIgnoredUnlessConfigured | src/Dao.WebApiCacheViaRedis/RedisCacheFilter.cs:29-31 | without the query option, requests differing only in the query share one Redis key |
| Filter.ResultKindOf | src/Dao.WebApiCacheViaRedis/RedisCacheFilter.cs:110-117 | plain text exactly for `string`, `Task<string>` and `ValueTask<string>`, JSON otherwise |
| Filter.GetResultValue | src/Dao.WebApiCacheViaRedis/RedisCacheFilter.cs:77-82 | an object result gives its JSON, a content result its content, anything else null |
| Filter.SetResult | src/Dao.WebApiCacheViaRedis/RedisCacheFilter.cs:84-108 | the response is content with the cached string and the kind's content type |
| Filter.GetAfterSet | src/Dao.WebApiCacheViaRedis/RedisCacheFilter.cs:77-108 | extracting the value of a response built from a cached string gives that string back |
| Filter.PlanFor | src/Dao.WebApiCacheViaRedis/RedisCacheFilter.cs:17-33 | a plan exists exactly for cacheable invocations, and its reset rules are empty |
| Filter.CacheableRunsGetOrAdd | src/Dao.WebApiCacheViaRedis/RedisCacheFilter.cs:27-46 | a cacheable request ends in the state of one `GetOrAddAsync` on the plan's key and route key, with empty reset rules |
| Filter.Produce | src/Dao.WebApiCacheViaRedis/RedisCacheFilter.cs:42-46 | the factory never throws: a throwing action leaves the executed context's result null, so it yields null; otherwise it yields the result's value |
| Filter.Run | src/Dao.WebApiCacheViaRedis/RedisCacheFilter.cs:35-64 | the action runs at most once; a served response is content; the request falls through exactly when the manager fails (the expiry overflows), and then the action runs once and only the manager's creation changed |
| Filter.OnActionExecution | src/Dao.WebApiCacheViaRedis/RedisCacheFilter.cs:15-65 | a request that is not cacheable runs the action once and changes nothing; a cacheable one falls through exactly when its expiry overflows; the action never runs twice |
| Filter.HitSkipsAction | src/Dao.WebApiCacheViaRedis/RedisCacheFilter.cs:42-54 | a cached response is served without running the action |
| Filter.MissRunsActionOnce | src/Dao.WebApiCacheViaRedis/RedisCacheFilter.cs:42-54 | on a miss the action runs once, its string is stored, and the filter assigns that string after the sentinel round trip |
| Filter.FailedActionCachesNull | src/Dao.WebApiCacheViaRedis/RedisCacheFilter.cs:42-54 | a throwing action on a miss runs once; the null sentinel is stored under the key, and the filter assigns the null result |
| Filter.FailurePoisonsKey | src/Dao.WebApiCacheViaRedis/RedisCacheFilter.cs:42-54 | after a throwing action's null is cached, the next request for the same invocation is served the text "RedisValueStringNull" without running the action |
| Corrected.HitServesSentinel | src/Dao.WebApiCacheViaRedis/RedisManager.cs:158-182 | as written: the producing caller gets null, and the next caller gets the text "RedisValueStringNull" |
| Corrected.GetOrAddFixed | src/Dao.WebApiCacheViaRedis/RedisManager.cs:144-184 | repaired: hits decode; a written key keeps the configured expiry and flags and is filed under all its declared entity types and routes; no other key enters or leaves the store, and the instance flag is unchanged |
| Corrected.ReadsAgree | src/Dao.WebApiCacheViaRedis/RedisManager.cs:158-182 | repaired: every later caller gets exactly what the producing caller got |
| Corrected.ReadsReturnProduced | src/Dao.WebApiCacheViaRedis/RedisManager.cs:158-182 | repaired: later callers get the produced value exactly when it survives the sentinel round trip |
| Corrected.MissUnlinksEntityTypes | src/Dao.WebApiCacheViaRedis/RedisManager.cs:153-175 | as written: with the sweep on, a freshly written entry is not reset by saving its declared entity type |
| Corrected.FinishGetOrAddFixed | src/Dao.WebApiCacheViaRedis/RedisManager.cs:164-182 | repaired in-lock step: hits decode; a write files the key under its relationship's buckets again, the tracked map becomes exactly `TryAdd` of the key, other keys' buckets, the outbox and the instance flag are unchanged |
| Corrected.MissThenSaveResets | src/Dao.WebApiCacheViaRedis/RedisManager.cs:153-175 | repaired: a fresh entry is reset by saving any of its entity types, with or without the sweep |
| Corrected.DeclaredRulesIgnored | src/Dao.WebApiCacheViaRedis/RedisCacheFilter.cs:23-73 | as written: an entity type declared on the action's attribute never files the cached response, so saving it leaves the response |
| Corrected.InitializeConfigFixed | src/Dao.WebApiCacheViaRedis/RedisCacheFilter.cs:67-73 | repaired: the configuration carries the attribute's reset rules |
| Corrected.OnActionExecutionFixed | src/Dao.WebApiCacheViaRedis/RedisCacheFilter.cs:15-65 | the filter with all three repairs: a request that is not cacheable runs the action once and changes nothing; a cacheable one falls through exactly when its expiry overflows; the action never runs twice |
| Corrected.DeclaredRulesHonoured | src/Dao.WebApiCacheViaRedis/RedisCacheFilter.cs:23-73 | repaired: a response cached on a miss is reset by saving any entity type its attribute declares |

## Left out

- Redis I/O is left out. `ConnectionMultiplexer`, `IDatabase` and `ISubscriber` are replaced by the store map and the outbox. Redis's own TTL expiry is not modelled either: an entry stays until it is reset. `Stored` records the expiry and flags it was written with.
- Concurrency is left out: the per-key `IndividualLocks`, the `volatile isCleaning` guard, the `Timer`, and the double-checked lazy singleton with its `logger ??=`. Interleaving is modelled only by the split of `GetOrAdd` at the lock (`SingleFlight`).
- `OnPubRoute` and `OnResetRequest` swallow exceptions. Deletes and publishes are total here, so there is nothing to swallow.
- Logging (`IRedisLogger`, `Stopwatch`, console output), DI wiring in `ServicesExtensions`, and the `RefOut`/`GetSet` holders are left out: they have no behaviour to state. `GetSet` is reduced to `GetResultValue` and `SetResult`.
- The log condition at RedisManager.cs:69 tests the result of `ResetSubRoute`, which RedisKeyRelationships.cs:114 declares `void`. `OnSubscribed` is modelled as an unconditional `ResetSubRoute`, without the log line.
- The bucket being drained may be changed by the reset callback while it is enumerated. The drain is modelled as a snapshot, then the callbacks, then a clear; enumeration order is insertion order.
- `Text.Lower`: only ASCII letters are lower-cased. `ToLowerInvariant` and `OrdinalIgnoreCase` also fold other letters; case-insensitivity is proved for the ASCII mapping only.
- Sorting.SortBy: the culture-sensitive `OrderBy` comparison is an abstract relation, assumed to be a total order in the permutation lemmas. A culture comparison can rank distinct strings as equal, and that case is not covered.
- JSON serialisation is an abstract deterministic function from a value tree to a string. `NullValueHandling.Ignore` and reference-loop handling are the serialiser's business and are not modelled.
- Reflection is replaced by small datatypes: `ClrType` for types, `AttributeGroup` for attributes grouped by type, and `Descriptor` for the action descriptor. The `Lazy` attribute cache and the optional `attributeFilter` of `GetAttributes` (always null at its one call site) are not modelled. `ValueType` is not distinguished from other classes.
- Time is integer ticks and the clock is a parameter. `Manager.GetOrAdd` requires the current time to lie within `DateTime`'s range. A `CreateTime.Add` outside that range is modelled as the call failing before anything changes.
- `MicroServiceRoute.HttpMethod` is a non-null string. A null method would throw in `ToString`, and that case is not modelled.
- Null elements inside the entity-type and route lists are not modelled.
- After `next()` has run, what ASP.NET Core does with the executed context is not modelled. An action's exception, recorded there, is rethrown by the framework once the filter returns. `Served` is the result the filter assigns at RedisCacheFilter.cs:53. On a miss `next()` has already run inside the factory, so the framework answers that request with the action's own result and ignores the assignment; only later hits are answered from the cache.
- Redis exceptions caught at RedisCacheFilter.cs:56-59 are not modelled, because Redis I/O is not. The only manager failure is the expiry overflow, which happens before the factory runs. A Redis failure after the factory ran would run the action a second time at line 64.
- An exception from the JSON serialiser inside the factory is not modelled: serialisation is a total function here. `Manager.GetOrAdd` still models a throwing factory in general.
- Manager.OnSubscribed: its contract only delegates to `ResetSubRoute`. What a delivered message does is stated by `ResetSubRoute` and `ResetCascades`.

## Findings

| source | as written | input that shows it | evidently intended | confidence | as-written member | corrected member |
|---|---|---|---|---|---|---|
| src/Dao.WebApiCacheViaRedis/RedisManager.cs:158-160, 164-167 | hits return the stored text without `StringValue` decoding, while the miss path at line 182 decodes | a factory returns null; the caller gets null, and the next caller reads the entry and gets "RedisValueStringNull" | hits return `StringValue` of the stored text, so every caller sees the same value | not executed | Corrected.HitServesSentinel | Corrected.ReadsAgree |
| src/Dao.WebApiCacheViaRedis/RedisManager.cs:153-162, 175 | on a miss, `Remove(key)` unlinks the key from the buckets the relationship filed it under at line 153, and line 175 only re-tracks it | `AutoCleanupInterval` set, key not stored and not tracked, `resetBy` lists entity type T; after the miss and write, saving T leaves the entry | the written entry stays filed under its declared entity types and routes | not executed | Corrected.MissUnlinksEntityTypes | Corrected.MissThenSaveResets |
| src/Dao.WebApiCacheViaRedis/RedisCacheFilter.cs:23, 67-73 | the reset rules are written through the `RedisCacheResetBy` getter of a new attribute whose field is null, so they land on a temporary object | an action with `[RedisCache]` whose reset rules list entity type T; after a miss, saving T leaves the cached response | the configuration carries the attribute's entity types and routes to `GetOrAddAsync` | not executed | Corrected.DeclaredRulesIgnored | Corrected.DeclaredRulesHonoured |

=== FILE: attribute.dfy ===
/** `RedisCacheAttribute`. Its `RedisCacheResetBy` property has a backing
    field and a getter that substitutes a new, unshared object while the field
    is `null`; mutating what that getter returned is modelled explicitly. */
module Attribute {
  import opened Wrappers
  import opened Settings
  import opened ResetBy

  datatype RedisCacheAttribute = RedisCacheAttribute(
    enabled: bool,
    redisConfiguration: Option<RedisConfiguration>,
    resetByField: Option<RedisCacheResetBy>)

  /** `new RedisCacheAttribute()`: enabled, no configuration, no reset rules. */
  function NewAttribute(): (a: RedisCacheAttribute)
    ensures a.enabled && a.redisConfiguration.None?
    ensures GetResetBy(a) == EmptyResetBy
  {
    RedisCacheAttribute(true, None, None)
  }

  /** `new RedisCacheAttribute(enabled)`. */
  function NewAttributeWith(enabled: bool): (a: RedisCacheAttribute)
    ensures a.enabled == enabled && a.redisConfiguration.None?
    ensures GetResetBy(a) == EmptyResetBy
  {
    RedisCacheAttribute(enabled, None, None)
  }

  /** The `RedisCacheResetBy` getter: never `null`; empty while unset. */
  function GetResetBy(a: RedisCacheAttribute): (r: RedisCacheResetBy)
    ensures a.resetByField.None? ==> r == EmptyResetBy
    ensures a.resetByField.Some? ==> r == a.resetByField.value
  {
    a.resetByField.GetOr(EmptyResetBy)
  }

  /** The `RedisCacheResetBy` setter. */
  function SetResetBy(a: RedisCacheAttribute, r: Option<RedisCacheResetBy>): RedisCacheAttribute {
    a.(resetByField := r)
  }

  /** `a.RedisCacheResetBy.EntityTypes = types`: the assignment reaches the
      attribute only when the getter returned the stored object. */
  function AssignEntityTypes(a: RedisCacheAttribute, types: Option<seq<EntityType>>): (r: RedisCacheAttribute)
    ensures a.resetByField.None? ==> r == a
    ensures a.resetByField.Some? ==> GetResetBy(r) == GetResetBy(a).(entityTypes := types)
    ensures r.enabled == a.enabled && r.redisConfiguration == a.redisConfiguration
  {
    match a.resetByField
    case None => a
    case Some(stored) => a.(resetByField := Some(stored.(entityTypes := types)))
  }

  /** `a.RedisCacheResetBy.MicroServiceRoutes = routes`, with the same aliasing. */
  function AssignRoutes(a: RedisCacheAttribute, routes: Option<seq<MicroServiceRoute>>): (r: RedisCacheAttribute)
    ensures a.resetByField.None? ==> r == a
    ensures a.resetByField.Some? ==> GetResetBy(r) == GetResetBy(a).(microServiceRoutes := routes)
    ensures r.enabled == a.enabled && r.redisConfiguration == a.redisConfiguration
  {
    match a.resetByField
    case None => a
    case Some(stored) => a.(resetByField := Some(stored.(microServiceRoutes := routes)))
  }

  /** Once a value is set, reads return it and writes through the getter stick;
      while unset, writes through the getter are lost. */
  lemma GetterAliasing(a: RedisCacheAttribute, r: RedisCacheResetBy, types: Option<seq<EntityType>>)
    ensures GetResetBy(SetResetBy(a, Some(r))) == r
    ensures GetResetBy(AssignEntityTypes(SetResetBy(a, Some(r)), types)).entityTypes == types
    ensures GetResetBy(AssignEntityTypes(SetResetBy(a, None), types)) == EmptyResetBy
  {
  }
}

=== FILE: cache_key.dfy ===
/** `RedisCacheKey`: the cache key `service$method$route$arguments$query` and
    the coarser route key `service$method$route`, both lower-cased. */
module CacheKey {
  import opened Wrappers
  import opened Text
  import opened Sorting
  import opened Extensions

  /** One query-string parameter with all of its values. */
  datatype QueryParam = QueryParam(name: string, values: seq<string>)

  /** An `IQueryCollection`: a dictionary, so no name occurs twice. */
  type Query = seq<QueryParam>

  /** What key building needs from its host but cannot see: the JSON
      serialiser (`ToJson`) and the culture comparison used by `OrderBy`. */
  datatype Host = Host(serialize: Value -> string, precedes: (string, string) -> bool)

  datatype RedisCacheKey = RedisCacheKey(
    serviceName: Option<string>,
    httpMethod: Option<string>,
    route: Option<string>,
    arguments: Option<seq<Field>>,
    query: Option<Query>)

  /** `CreateRouteKey`: `service$method$route` with trailing slashes trimmed
      from the whole string, then lower-cased. The result is lower-case,
      non-empty and never ends in a slash. */
  function CreateRouteKey(serviceName: Option<string>, httpMethod: Option<string>, route: Option<string>): (r: string)
    ensures IsLower(r)
    ensures |r| > 0 && r[|r| - 1] != '/'
  {
    var composed := Render(serviceName) + "$" + Render(httpMethod) + "$" + Render(route);
    var trimmed := TrimEndSlash(composed);
    assert composed[|Render(serviceName)|] == '$';
    LowerIsLower(trimmed);
    LowerKeepsSlash(trimmed[|trimmed| - 1]);
    Lower(trimmed)
  }

  /** The `RouteKey` property: the route itself when it is blank, otherwise
      `CreateRouteKey` of the key's service, method and route. */
  function RouteKey(k: RedisCacheKey): (r: Option<string>)
    ensures IsNullOrWhiteSpace(k.route) ==> r == k.route
    ensures !IsNullOrWhiteSpace(k.route) ==> r.Some? && IsLower(r.value)
  {
    if IsNullOrWhiteSpace(k.route) then k.route
    else Some(CreateRouteKey(k.serviceName, k.httpMethod, k.route))
  }

  // ---------------------------------------------------------------------------
  // Query normalisation

  function NameOf(p: QueryParam): string {
    p.name
  }

  /** No parameter name occurs twice. */
  ghost predicate DistinctNames(q: Query) {
    forall i, j :: 0 <= i < |q| && 0 <= j < |q| && q[i].name == q[j].name ==> i == j
  }

  /** One parameter with its values in order. */
  function SortValues(p: QueryParam, precedes: (string, string) -> bool): QueryParam {
    QueryParam(p.name, SortBy(p.values, Self, precedes))
  }

  function SortValuesEach(q: Query, precedes: (string, string) -> bool): (r: Query)
    ensures |r| == |q|
    ensures forall i :: 0 <= i < |q| ==> r[i] == SortValues(q[i], precedes)
  {
    if q == [] then [] else [SortValues(q[0], precedes)] + SortValuesEach(q[1..], precedes)
  }

  /** `Query.OrderBy(o => o.Key).ToDictionary(k => k.Key, v => v.Value.OrderBy(o => o))`:
      the parameters sorted by name, each value list sorted. */
  function Normalise(q: Query, precedes: (string, string) -> bool): (r: Query)
    ensures |r| == |q|
  {
    SortValuesEach(SortBy(q, NameOf, precedes), precedes)
  }

  /** The dictionary handed to the serialiser: name to array of values. */
  function QueryValue(q: Query): Value {
    Object(seq(|q|, i requires 0 <= i < |q| =>
      Field(q[i].name, Array(seq(|q[i].values|, j requires 0 <= j < |q[i].values| => Str(q[i].values[j]))))))
  }

  /** `ParseQuery`: nothing for a null or empty query, otherwise `"$"` and the
      serialised normalised query. */
  function ParseQuery(q: Option<Query>, host: Host): (r: Option<string>)
    ensures r.None? <==> IsNullOrEmpty(q)
    ensures r.Some? ==> |r.value| > 0 && r.value[0] == '$'
  {
    if IsNullOrEmpty(q) then None
    else Some("$" + host.serialize(QueryValue(Normalise(q.value, host.precedes))))
  }

  /** The serialised arguments; nothing when they are `null`. */
  function ArgumentsText(arguments: Option<seq<Field>>, host: Host): string {
    Render(ToJson(if arguments.Some? then Some(Object(arguments.value)) else None, host.serialize))
  }

  /** `ToString`: the route key, `"$"`, the serialised arguments and the query
      part, all lower-cased. It always extends the route key and `"$"`, even
      when the route is blank. */
  function ToString(k: RedisCacheKey, host: Host): (r: string)
    ensures IsLower(r)
    ensures var prefix := CreateRouteKey(k.serviceName, k.httpMethod, k.route) + "$";
      |r| >= |prefix| && r[..|prefix|] == prefix
  {
    var routeKey := CreateRouteKey(k.serviceName, k.httpMethod, k.route);
    var rest := ArgumentsText(k.arguments, host) + Render(ParseQuery(k.query, host));
    LowerIsLower(routeKey + "$" + rest);
    LowerConcat(routeKey + "$", rest);
    LowerConcat(routeKey, "$");
    LowerOfLower(routeKey);
    Lower(routeKey + "$" + rest)
  }

  // ---------------------------------------------------------------------------
  // Properties

  /** Lower-casing and trimming trailing slashes commute. */
  lemma {:induction false} LowerTrimCommute(s: string)
    ensures Lower(TrimEndSlash(s)) == TrimEndSlash(Lower(s))
    decreases |s|
  {
    if |s| > 0 {
      LowerKeepsSlash(s[|s| - 1]);
      if s[|s| - 1] == '/' {
        assert Lower(s)[..|s| - 1] == Lower(s[..|s| - 1]);
        LowerTrimCommute(s[..|s| - 1]);
      }
    }
  }

  /** A route with trailing slashes gives the same route key as without. */
  lemma TrailingSlashIrrelevant(serviceName: Option<string>, httpMethod: Option<string>, route: string, slashes: string)
    requires forall i :: 0 <= i < |slashes| ==> slashes[i] == '/'
    ensures CreateRouteKey(serviceName, httpMethod, Some(route + slashes)) == CreateRouteKey(serviceName, httpMethod, Some(route))
  {
    var prefix := Render(serviceName) + "$" + Render(httpMethod) + "$";
    assert prefix + Render(Some(route + slashes)) == (prefix + route) + slashes;
    TrimEndSlashAbsorbs(prefix + route, slashes);
  }

  /** Letter case of service, method and route does not matter to the route key. */
  lemma {:induction false} RouteKeyIgnoresCase(s1: Option<string>, m1: Option<string>, r1: Option<string>,
                                                s2: Option<string>, m2: Option<string>, r2: Option<string>)
    requires EqualsIgnoreCase(Render(s1), Render(s2))
    requires EqualsIgnoreCase(Render(m1), Render(m2))
    requires EqualsIgnoreCase(Render(r1), Render(r2))
    ensures CreateRouteKey(s1, m1, r1) == CreateRouteKey(s2, m2, r2)
  {
    var c1 := Render(s1) + "$" + Render(m1) + "$" + Render(r1);
    var c2 := Render(s2) + "$" + Render(m2) + "$" + Render(r2);
    LowerConcat(Render(s1) + "$" + Render(m1) + "$", Render(r1));
    LowerConcat(Render(s1) + "$" + Render(m1), "$");
    LowerConcat(Render(s1) + "$", Render(m1));
    LowerConcat(Render(s1), "$");
    LowerConcat(Render(s2) + "$" + Render(m2) + "$", Render(r2));
    LowerConcat(Render(s2) + "$" + Render(m2), "$");
    LowerConcat(Render(s2) + "$", Render(m2));
    LowerConcat(Render(s2), "$");
    assert Lower(c1) == Lower(c2);
    LowerTrimCommute(c1);
    LowerTrimCommute(c2);
  }

  /** For a non-blank route the cache key extends the route key and `"$"`:
      the route key is the coarser identifier of the same request. */
  lemma KeyExtendsRouteKey(k: RedisCacheKey, host: Host)
    requires !IsNullOrWhiteSpace(k.route)
    ensures var rk := RouteKey(k).value + "$";
      |ToString(k, host)| >= |rk| && ToString(k, host)[..|rk|] == rk
  {
  }

  /** Keys that differ only in letter case, including inside the serialised
      arguments and query, are equal. */
  lemma {:induction false} ToStringIgnoresCase(k1: RedisCacheKey, k2: RedisCacheKey, host: Host)
    requires EqualsIgnoreCase(Render(k1.serviceName), Render(k2.serviceName))
    requires EqualsIgnoreCase(Render(k1.httpMethod), Render(k2.httpMethod))
    requires EqualsIgnoreCase(Render(k1.route), Render(k2.route))
    requires EqualsIgnoreCase(ArgumentsText(k1.arguments, host), ArgumentsText(k2.arguments, host))
    requires EqualsIgnoreCase(Render(ParseQuery(k1.query, host)), Render(ParseQuery(k2.query, host)))
    ensures ToString(k1, host) == ToString(k2, host)
  {
    RouteKeyIgnoresCase(k1.serviceName, k1.httpMethod, k1.route, k2.serviceName, k2.httpMethod, k2.route);
    var rk := CreateRouteKey(k1.serviceName, k1.httpMethod, k1.route);
    var a1 := ArgumentsText(k1.arguments, host);
    var a2 := ArgumentsText(k2.arguments, host);
    var q1 := Render(ParseQuery(k1.query, host));
    var q2 := Render(ParseQuery(k2.query, host));
    assert ToString(k1, host) == Lower(rk + "$" + (a1 + q1));
    assert ToString(k2, host) == Lower(rk + "$" + (a2 + q2));
    LowerConcat(rk + "$", a1 + q1);
    LowerConcat(a1, q1);
    LowerConcat(rk + "$", a2 + q2);
    LowerConcat(a2, q2);
  }

  /** Inserting then sorting values commutes with sorting each value list. */
  lemma {:induction false} InsertCommutes(x: QueryParam, s: Query, precedes: (string, string) -> bool)
    ensures InsertBy(SortValues(x, precedes), SortValuesEach(s, precedes), NameOf, precedes)
         == SortValuesEach(InsertBy(x, s, NameOf, precedes), precedes)
  {
    var sx := SortValues(x, precedes);
    assert NameOf(sx) == NameOf(x);
    if s == [] {
      assert InsertBy(x, s, NameOf, precedes) == [x];
    } else {
      var t := SortValuesEach(s, precedes);
      assert t == [SortValues(s[0], precedes)] + SortValuesEach(s[1..], precedes);
      assert t[0] == SortValues(s[0], precedes) && t[1..] == SortValuesEach(s[1..], precedes);
      assert NameOf(t[0]) == NameOf(s[0]);
      if precedes(NameOf(x), NameOf(s[0])) {
        assert InsertBy(x, s, NameOf, precedes) == [x] + s;
        assert InsertBy(sx, t, NameOf, precedes) == [sx] + t;
        assert ([x] + s)[0] == x && ([x] + s)[1..] == s;
      } else {
        var ins := InsertBy(x, s[1..], NameOf, precedes);
        assert InsertBy(x, s, NameOf, precedes) == [s[0]] + ins;
        assert InsertBy(sx, t, NameOf, precedes) == [t[0]] + InsertBy(sx, t[1..], NameOf, precedes);
        InsertCommutes(x, s[1..], precedes);
        assert ([s[0]] + ins)[0] == s[0] && ([s[0]] + ins)[1..] == ins;
      }
    }
  }

  /** Sorting by name and sorting each value list can be done in either order. */
  lemma {:induction false} SortCommutes(q: Query, precedes: (string, string) -> bool)
    ensures Normalise(q, precedes) == SortBy(SortValuesEach(q, precedes), NameOf, precedes)
  {
    if q != [] {
      var t := SortValuesEach(q, precedes);
      assert t[0] == SortValues(q[0], precedes) && t[1..] == SortValuesEach(q[1..], precedes);
      SortCommutes(q[1..], precedes);
      InsertCommutes(q[0], SortBy(q[1..], NameOf, precedes), precedes);
    }
  }

  /** Normalisation sorts by name, sorts each value list, and keeps exactly the
      parameters of the query with their values. */
  lemma NormaliseSorts(q: Query, precedes: (string, string) -> bool)
    requires TotalOrder(precedes)
    ensures SortedBy(Normalise(q, precedes), NameOf, precedes)
    ensures forall i :: 0 <= i < |q| ==> SortedBy(Normalise(q, precedes)[i].values, Self, precedes)
    ensures multiset(Normalise(q, precedes)) == multiset(SortValuesEach(q, precedes))
  {
    var s := SortBy(q, NameOf, precedes);
    SortBySorted(q, NameOf, precedes);
    forall i | 0 <= i < |q| ensures SortedBy(Normalise(q, precedes)[i].values, Self, precedes) {
      SortBySorted(s[i].values, Self, precedes);
    }
    SortCommutes(q, precedes);
  }

  /** Reordering the parameters of a query does not change its normal form. */
  lemma QueryOrderIrrelevant(q1: Query, q2: Query, precedes: (string, string) -> bool)
    requires TotalOrder(precedes)
    requires DistinctNames(q1)
    requires multiset(q1) == multiset(q2)
    ensures Normalise(q1, precedes) == Normalise(q2, precedes)
  {
    SortByPermutation(q1, q2, NameOf, precedes);
  }

  /** Reordering the values of one parameter does not change the normal form. */
  lemma ValueOrderIrrelevant(q: Query, i: nat, values: seq<string>, precedes: (string, string) -> bool)
    requires TotalOrder(precedes)
    requires i < |q|
    requires multiset(values) == multiset(q[i].values)
    ensures Normalise(q, precedes) == Normalise(q[i := QueryParam(q[i].name, values)], precedes)
  {
    var q' := q[i := QueryParam(q[i].name, values)];
    SortByPermutation(values, q[i].values, Self, precedes);
    assert SortValuesEach(q, precedes) == SortValuesEach(q', precedes);
    SortCommutes(q, precedes);
    SortCommutes(q', precedes);
  }

  /** Keys whose queries differ only in parameter order, or in the order of one
      parameter's values, are equal. */
  lemma ToStringQueryPermutation(k: RedisCacheKey, q: Query, host: Host)
    requires TotalOrder(host.precedes)
    requires k.query.Some? && DistinctNames(k.query.value)
    requires multiset(q) == multiset(k.query.value)
      || (exists i :: 0 <= i < |q| && |q| == |k.query.value|
            && q == k.query.value[i := QueryParam(k.query.value[i].name, q[i].values)]
            && multiset(q[i].values) == multiset(k.query.value[i].values))
    ensures ToString(k, host) == ToString(k.(query := Some(q)), host)
  {
    var q0 := k.query.value;
    if multiset(q) == multiset(q0) {
      QueryOrderIrrelevant(q0, q, host.precedes);
      assert |q| == |multiset(q)| == |q0|;
    } else {
      var i :| 0 <= i < |q| && |q| == |q0| && q == q0[i := QueryParam(q0[i].name, q[i].values)]
            && multiset(q[i].values) == multiset(q0[i].values);
      ValueOrderIrrelevant(q0, i, q[i].values, host.precedes);
    }
    SameNormalForm(k, q, host);
  }

  /** Queries of equal length with the same normal form give the same key. */
  lemma SameNormalForm(k: RedisCacheKey, q: Query, host: Host)
    requires k.query.Some? && |q| == |k.query.value|
    requires Normalise(k.query.value, host.precedes) == Normalise(q, host.precedes)
    ensures ToString(k, host) == ToString(k.(query := Some(q)), host)
  {
    assert ParseQuery(k.query, host) == ParseQuery(Some(q), host);
  }

  /** A serialiser that writes only the name of an object's first field. */
  function FirstFieldName(v: Value): string {
    if v.Object? && |v.fields| > 0 then v.fields[0].name else ""
  }

  /** A comparison under which every string precedes every other. */
  function AnyOrder(a: string, b: string): bool {
    true
  }

  /** Argument order is not normalised: some serialiser writes the same
      arguments in two orders as two different keys. */
  lemma ArgumentOrderMatters()
    ensures exists host: Host, k: RedisCacheKey, args: seq<Field> ::
      k.arguments.Some? && multiset(args) == multiset(k.arguments.value)
      && ToString(k, host) != ToString(k.(arguments := Some(args)), host)
  {
    var a := Field("a", Null);
    var b := Field("b", Null);
    var host := Host(FirstFieldName, AnyOrder);
    var k := RedisCacheKey(None, None, None, Some([a, b]), None);
    var k' := k.(arguments := Some([b, a]));
    assert ArgumentsText(k.arguments, host) == "a";
    assert ArgumentsText(k'.arguments, host) == "b";
    var rk := CreateRouteKey(None, None, None);
    assert |rk| == 2 by {
      assert TrimEndSlash("$$") == "$$";
    }
    var s1 := Lower(rk + "$" + "a");
    var s2 := Lower(rk + "$" + "b");
    assert ToString(k, host) == s1;
    assert ToString(k', host) == s2;
    assert s1[3] == 'a' && s2[3] == 'b';
    assert multiset([b, a]) == multiset([a, b]);
  }
}

=== FILE: corrected.dfy ===
/** Three defects, each as written and repaired.

    1. A hit returns the stored text without decoding it, so a `null` or empty
       value that one caller received is served to the next caller as the
       sentinel text.
    2. On a miss, `Remove(key)` runs after the relationship has filed the key
       under its entity types and routes; when the key is tracked (always with
       the sweep enabled) this takes the key out of those buckets again, and
       tracking it after the write does not put it back. A later save of one
       of those entity types then leaves the entry in place.
    3. The filter copies the attribute's reset rules into a fresh attribute
       through its `RedisCacheResetBy` getter while the backing field is
       `null`; the copies are lost, so no cached response is ever filed under
       the entity types or routes its attribute declares. */
module Corrected {
  import opened Wrappers
  import opened Text
  import opened Extensions
  import opened ResetBy
  import opened MutableItems
  import opened KeyRelationships
  import opened Settings
  import opened CacheKey
  import opened Attribute
  import opened Manager
  import opened Filter

  /** As written: a `null` result is returned as `null` to the caller that
      produced it and as the null sentinel text to every later caller. */
  lemma HitServesSentinel(s: State, q: Request, sweep: bool, now1: int, now2: int)
    requires q.key !in s.store
    requires 0 <= now1 <= MaxTicks && ExpiryFits(q.config, now1)
    requires 0 <= now2 <= MaxTicks && ExpiryFits(q.config, now2)
    ensures var first := GetOrAdd(s, q, sweep, now1, Produced(None));
      && first.outcome == Returned(None)
      && GetOrAdd(first.state, q, sweep, now2, Threw).outcome == Returned(Some(NullMarker))
  {
  }

  /** As written: with the sweep enabled, a fresh entry is not filed under its
      entity types once it is written, so saving one of them does not reset it. */
  lemma MissUnlinksEntityTypes(s: State, q: Request, now: int, v: Option<string>, t: EntityType)
    requires 0 <= now <= MaxTicks && ExpiryFits(q.config, now)
    requires s.created && q.key !in s.store && q.key !in s.requests && t in EntityList(q.resetBy)
    ensures var c := GetOrAdd(s, q, true, now, Produced(v));
      q.key in c.state.store && q.key in AfterSaveChanges(c.state, Some([t])).state.store
  {
    var reg := Register(s, q, true, now);
    assert reg.state.requests == s.requests[q.key := (reg.item, reg.relationship)];
    var s1 := Remove(reg.state, q.key);
    assert q.key !in BucketOf(s1.index.entityRequests, t);
    var c := FinishGetOrAdd(s1, q, reg, Produced(v));
    assert c == GetOrAdd(s, q, true, now, Produced(v));
    EntityResetPrecise(c.state, [t], q.key);
  }

  /** The in-lock step with both repairs: a second-read hit decodes the stored
      text, and a write files the key under its relationship's buckets again. */
  function FinishGetOrAddFixed(s: State, q: Request, reg: Registered, produced: Produced): (r: Completion)
    requires reg.item.value == q.key
    ensures q.key in s.store ==> r == Completion(s, Returned(StringValue(Text(s.store[q.key].text))), false)
    ensures q.key !in s.store ==> r.invoked
    ensures produced.Threw? && q.key !in s.store ==> r.state == s && r.outcome.Failed?
    ensures produced.Produced? && q.key !in s.store ==>
      && r.state.store == s.store[q.key := Stored(ToRedisValue(produced.value).text, ExpiryOf(q.config), FlagsOf(q.config))]
      && r.outcome == Returned(StringValue(Text(r.state.store[q.key].text)))
      && q.key in r.state.requests
      && (forall t :: t in reg.relationship.entityTypes ==> q.key in BucketOf(r.state.index.entityRequests, t))
      && (forall p :: p in reg.relationship.subRoutes ==> q.key in BucketOf(r.state.index.subRouteRequests, p))
      && r.state.requests == TryAdd(s.requests, reg.item, reg.relationship)
      && r.state.outbox == s.outbox
    ensures produced.Produced? && q.key !in s.store ==> forall t, w :: w != q.key ==>
      (w in BucketOf(r.state.index.entityRequests, t) <==> w in BucketOf(s.index.entityRequests, t))
    ensures produced.Produced? && q.key !in s.store ==> forall p, w :: w != q.key ==>
      (w in BucketOf(r.state.index.subRouteRequests, p) <==> w in BucketOf(s.index.subRouteRequests, p))
    ensures r.state.created == s.created
    ensures Valid(s) ==> Valid(r.state)
  {
    if q.key in s.store then Completion(s, Returned(StringValue(Text(s.store[q.key].text))), false)
    else match produced
      case Threw => Completion(s, Failed, true)
      case Produced(v) =>
        var text := ToRedisValue(v).text;
        var rel := reg.relationship;
        var (idx, _) := NewRelationship(s.index, q.key, rel.pubRoute, Some(rel.entityTypes), Some(rel.subRoutes));
        var s1 := s.(store := s.store[q.key := Stored(text, ExpiryOf(q.config), FlagsOf(q.config))],
                     requests := TryAdd(s.requests, reg.item, rel),
                     index := idx);
        Completion(s1, Returned(StringValue(Text(text))), true)
  }

  /** `GetOrAddAsync` with both repairs. */
  function GetOrAddFixed(s: State, q: Request, sweep: bool, now: int, produced: Produced): (r: Completion)
    requires 0 <= now <= MaxTicks
    ensures !ExpiryFits(q.config, now) ==> r == Completion(s, Failed, false)
    ensures r.invoked <==> ExpiryFits(q.config, now) && q.key !in s.store
    ensures ExpiryFits(q.config, now) && q.key in s.store ==>
      r.outcome == Returned(StringValue(Text(s.store[q.key].text)))
    ensures r.invoked && produced.Produced? ==>
      && q.key in r.state.store && q.key in r.state.requests
      && r.state.store[q.key].expiry == ExpiryOf(q.config) && r.state.store[q.key].flags == FlagsOf(q.config)
      && r.outcome == Returned(StringValue(Text(r.state.store[q.key].text)))
      && (forall t :: t in EntityList(q.resetBy) ==> q.key in BucketOf(r.state.index.entityRequests, t))
      && (forall p :: p in RouteList(q.resetBy) ==> q.key in BucketOf(r.state.index.subRouteRequests, p))
    ensures forall k :: k != q.key ==> (k in r.state.store <==> k in s.store)
    ensures r.state.created == s.created
    ensures Valid(s) ==> Valid(r.state)
  {
    if !ExpiryFits(q.config, now) then Completion(s, Failed, false)
    else match BeginGetOrAdd(s, q, sweep, now)
      case Hit(s1, raw) => Completion(s1, Returned(StringValue(Text(raw))), false)
      case Miss(s1, reg) => FinishGetOrAddFixed(s1, q, reg, produced)
  }

  /** Repaired: every later caller gets exactly what the first caller got,
      whatever the factory produced, `null` and empty included. */
  lemma ReadsAgree(s: State, q: Request, sweep: bool, now1: int, now2: int, v: Option<string>, other: Produced)
    requires q.key !in s.store
    requires 0 <= now1 <= MaxTicks && ExpiryFits(q.config, now1)
    requires 0 <= now2 <= MaxTicks && ExpiryFits(q.config, now2)
    ensures var first := GetOrAddFixed(s, q, sweep, now1, Produced(v));
      && first.outcome == Returned(StringValue(ToRedisValue(v)))
      && GetOrAddFixed(first.state, q, sweep, now2, other).outcome == first.outcome
  {
  }

  /** Repaired: a value the factory returned round-trips to every caller
      exactly when it is `null`, empty, or neither blank nor a sentinel. */
  lemma ReadsReturnProduced(s: State, q: Request, sweep: bool, now1: int, now2: int, v: Option<string>, other: Produced)
    requires q.key !in s.store
    requires 0 <= now1 <= MaxTicks && ExpiryFits(q.config, now1)
    requires 0 <= now2 <= MaxTicks && ExpiryFits(q.config, now2)
    ensures var first := GetOrAddFixed(s, q, sweep, now1, Produced(v));
      GetOrAddFixed(first.state, q, sweep, now2, other).outcome == Returned(v) <==>
        v.None? || v == Some("") || (!IsNullOrWhiteSpace(v) && !IsMarkerText(v.value))
  {
    ReadsAgree(s, q, sweep, now1, now2, v, other);
    RoundTrip(v);
  }

  /** Repaired: a fresh entry is reset by a save of any of its entity types,
      whether or not the sweep is enabled. */
  lemma MissThenSaveResets(s: State, q: Request, sweep: bool, now: int, v: Option<string>, t: EntityType)
    requires 0 <= now <= MaxTicks && ExpiryFits(q.config, now)
    requires s.created && q.key !in s.store && t in EntityList(q.resetBy)
    ensures var c := GetOrAddFixed(s, q, sweep, now, Produced(v));
      q.key in c.state.store && q.key !in AfterSaveChanges(c.state, Some([t])).state.store
  {
    var c := GetOrAddFixed(s, q, sweep, now, Produced(v));
    assert q.key in BucketOf(c.state.index.entityRequests, t);
    EntityResetPrecise(c.state, [t], q.key);
  }

  /** As written: an entity type declared on the action's attribute never
      reaches the relationship, so saving it leaves a freshly cached response. */
  lemma DeclaredRulesIgnored(s: State, env: Environment, inv: Invocation, now: int, result: ActionResult, t: EntityType)
    requires 0 <= now <= MaxTicks && Cacheable(env, inv)
    requires var attr := FirstAttribute(inv.descriptor.value);
      attr.Some? && t in GetResetBy(attr.value).entityTypes.GetOr([])
    requires var p := PlanFor(env, inv).value;
      var key := ToString(p.key, env.host);
      && ExpiryFits(Some(p.configuration), now) && key !in s.store
      && key !in BucketOf(s.index.entityRequests, t)
    ensures var p := PlanFor(env, inv).value;
      var key := ToString(p.key, env.host);
      var r := OnActionExecution(s, env, inv, now, Some(result));
      key in r.state.store && key in AfterSaveChanges(r.state, Some([t])).state.store
  {
    var p := PlanFor(env, inv).value;
    var key := ToString(p.key, env.host);
    var q := Request(key, RouteKey(p.key), Some(EmptyResetBy), Some(p.configuration));
    CacheableRunsGetOrAdd(s, env, inv, now, Some(result));
    EmptyRulesSurviveSave(GetOrCreate(s), q, SweepEnabled(env.settings), now, GetResultValue(result, env.host.serialize), t);
  }

  /** A step of `DeclaredRulesIgnored`, with no source lines of its own: a
      request written with empty reset rules is filed under no entity type,
      so a save of any type it was not already filed under leaves it. */
  lemma EmptyRulesSurviveSave(s: State, q: Request, sweep: bool, now: int, v: Option<string>, t: EntityType)
    requires 0 <= now <= MaxTicks && ExpiryFits(q.config, now)
    requires q.resetBy == Some(EmptyResetBy) && s.created && q.key !in s.store
    requires q.key !in BucketOf(s.index.entityRequests, t)
    ensures var c := GetOrAdd(s, q, sweep, now, Produced(v));
      q.key in c.state.store && q.key in AfterSaveChanges(c.state, Some([t])).state.store
  {
    var b := BeginGetOrAdd(s, q, sweep, now);
    assert b.Miss?;
    var c := FinishGetOrAdd(b.state, q, b.registered, Produced(v));
    assert q.key !in BucketOf(c.state.index.entityRequests, t);
    EntityResetPrecise(c.state, [t], q.key);
  }

  /** Lines 67-73 repaired: the configuration takes the attribute's reset
      rules through the setter, so they survive. */
  function InitializeConfigFixed(attr: Option<RedisCacheAttribute>, settings: RedisCacheSettings): (config: RedisCacheAttribute)
    ensures config.enabled
    ensures config.redisConfiguration == InitializeConfig(attr, settings).redisConfiguration
    ensures attr.Some? ==> GetResetBy(config) == GetResetBy(attr.value)
    ensures attr.None? ==> GetResetBy(config) == EmptyResetBy
  {
    var config := InitializeConfig(attr, settings);
    var types := if attr.Some? then GetResetBy(attr.value).entityTypes else None;
    var routes := if attr.Some? then GetResetBy(attr.value).microServiceRoutes else None;
    SetResetBy(config, Some(RedisCacheResetBy(types, routes)))
  }

  /** `OnActionExecutionAsync` with all three repairs. */
  function OnActionExecutionFixed(s: State, env: Environment, inv: Invocation, now: int, action: Option<ActionResult>): (r: FilterRun)
    requires 0 <= now <= MaxTicks
    ensures !Cacheable(env, inv) ==> r == FilterRun(s, PassedThrough, 1)
    ensures Cacheable(env, inv) ==> r.state.created
    ensures Cacheable(env, inv) ==>
      (r.response.PassedThrough? <==> !ExpiryFits(Some(PlanFor(env, inv).value.configuration), now))
    ensures r.actionRuns <= 1
  {
    match PlanFor(env, inv)
    case None => FilterRun(s, PassedThrough, 1)
    case Some(p) =>
      var config := InitializeConfigFixed(FirstAttribute(inv.descriptor.value), GlobalSettings(env.settings));
      var q := Request(ToString(p.key, env.host), RouteKey(p.key), Some(GetResetBy(config)), Some(p.configuration));
      var c := GetOrAddFixed(GetOrCreate(s), q, SweepEnabled(env.settings), now, Produce(action, env.host.serialize));
      var runs := if c.invoked then 1 else 0;
      match c.outcome
      case Returned(v) => FilterRun(c.state, Served(SetResult(p.kind, v)), runs)
      case Failed => FilterRun(c.state, PassedThrough, runs + 1)
  }

  /** Repaired: a response cached on a miss is reset by a save of any entity
      type its attribute declares. */
  lemma DeclaredRulesHonoured(s: State, env: Environment, inv: Invocation, now: int, result: ActionResult, t: EntityType)
    requires 0 <= now <= MaxTicks && Cacheable(env, inv)
    requires var attr := FirstAttribute(inv.descriptor.value);
      attr.Some? && t in GetResetBy(attr.value).entityTypes.GetOr([])
    requires var p := PlanFor(env, inv).value;
      ExpiryFits(Some(p.configuration), now) && ToString(p.key, env.host) !in s.store
    ensures var p := PlanFor(env, inv).value;
      var key := ToString(p.key, env.host);
      var r := OnActionExecutionFixed(s, env, inv, now, Some(result));
      key in r.state.store && key !in AfterSaveChanges(r.state, Some([t])).state.store
  {
    var p := PlanFor(env, inv).value;
    var attr := FirstAttribute(inv.descriptor.value);
    var config := InitializeConfigFixed(attr, GlobalSettings(env.settings));
    var q := Request(ToString(p.key, env.host), RouteKey(p.key), Some(GetResetBy(config)), Some(p.configuration));
    assert t in EntityList(q.resetBy);
    MissThenSaveResets(GetOrCreate(s), q, SweepEnabled(env.settings), now, GetResultValue(result, env.host.serialize), t);
  }
}

=== FILE: extensions.dfy ===
/** The static helpers of `Extensions`: the stored-value sentinel codec,
    `In`/`IsNullOrEmpty`, the return-type tests used by the filter, JSON
    serialisation and the action-over-controller attribute merge. */
module Extensions {
  import opened Wrappers
  import opened Text

  // ---------------------------------------------------------------------------
  // Stored values and their sentinels

  /** A Redis value as the cache sees it: absent (`HasValue` false) or text. */
  datatype RedisValue = Nil | Text(text: string)

  /** The token stored for a `null` result (`nameof(RedisValueStringNull)`). */
  const NullMarker: string := "RedisValueStringNull"

  /** The token stored for a blank result (`nameof(RedisValueStringEmpty)`). */
  const EmptyMarker: string := "RedisValueStringEmpty"

  /** Text that decoding reads as one of the two sentinels, in any casing. */
  predicate IsMarkerText(t: string) {
    EqualsIgnoreCase(t, NullMarker) || EqualsIgnoreCase(t, EmptyMarker)
  }

  /** `StringValue`: decodes a stored value, comparing with the sentinels
      ignoring case. */
  function StringValue(v: RedisValue): (r: Option<string>)
    ensures v.Nil? ==> r.None?
    ensures v.Text? && EqualsIgnoreCase(v.text, NullMarker) ==> r.None?
    ensures v.Text? && EqualsIgnoreCase(v.text, EmptyMarker) ==> r == Some("")
    ensures v.Text? && !IsMarkerText(v.text) ==> r == Some(v.text)
  {
    match v
    case Nil => None
    case Text(t) =>
      if EqualsIgnoreCase(t, NullMarker) then None
      else if EqualsIgnoreCase(t, EmptyMarker) then Some("")
      else Some(t)
  }

  /** `ToRedisValue`: encodes a result for storage. What it stores is never
      absent, never blank, and is either a sentinel or the input itself. */
  function ToRedisValue(s: Option<string>): (r: RedisValue)
    ensures r.Text? && |r.text| > 0
    ensures !IsNullOrWhiteSpace(Some(r.text))
    ensures r.text == NullMarker || r.text == EmptyMarker || Some(r.text) == s
  {
    assert NullMarker[0] == 'R' && EmptyMarker[0] == 'R';
    if s.None? then Text(NullMarker)
    else if IsNullOrWhiteSpace(s) then Text(EmptyMarker)
    else Text(s.value)
  }

  /** A `null` result is stored as the null token and read back as `null`. */
  lemma NullRoundTrip()
    ensures ToRedisValue(None) == Text("RedisValueStringNull")
    ensures StringValue(ToRedisValue(None)) == None
  {
  }

  /** Every blank string is stored as the empty token and read back as "",
      so a blank string of positive length does not survive the round trip. */
  lemma BlankCollapses(s: string)
    requires IsNullOrWhiteSpace(Some(s))
    ensures ToRedisValue(Some(s)) == Text("RedisValueStringEmpty")
    ensures StringValue(ToRedisValue(Some(s))) == Some("")
    ensures |s| > 0 ==> StringValue(ToRedisValue(Some(s))) != Some(s)
  {
    assert !EqualsIgnoreCase(EmptyMarker, NullMarker) by {
      assert |Lower(EmptyMarker)| != |Lower(NullMarker)|;
    }
  }

  /** Exactly which results survive storage: `null`, "", and every other
      non-blank text that is not a sentinel in some casing. */
  lemma RoundTrip(s: Option<string>)
    ensures StringValue(ToRedisValue(s)) == s <==>
      s.None? || s == Some("") || (!IsNullOrWhiteSpace(s) && !IsMarkerText(s.value))
  {
    assert !EqualsIgnoreCase(EmptyMarker, NullMarker) by {
      assert |Lower(EmptyMarker)| != |Lower(NullMarker)|;
    }
    if s.Some? && IsNullOrWhiteSpace(s) && |s.value| > 0 {
      BlankCollapses(s.value);
    }
  }

  // ---------------------------------------------------------------------------
  // Collections

  /** `IsNullOrEmpty` on a possibly-null sequence: `null`, or `Any()` is false. */
  function IsNullOrEmpty<T>(s: Option<seq<T>>): (r: bool)
    ensures !r <==> s.Some? && exists x :: x in s.value
  {
    if s.None? || |s.value| == 0 then true
    else assert s.value[0] in s.value; false
  }

  /** `In(comparer, args)`: membership under `comparer`, default equality when
      the comparer is `null`; false for a null or empty argument list. */
  function InWith<T(==)>(x: T, comparer: Option<(T, T) -> bool>, args: Option<seq<T>>): (r: bool)
    ensures r <==> args.Some? && exists i :: 0 <= i < |args.value| && Same(comparer, args.value[i], x)
  {
    !IsNullOrEmpty(args) && Contains(args.value, x, comparer)
  }

  /** The comparer's verdict on `a` and `b`; default equality for a `null` comparer. */
  predicate Same<T(==)>(comparer: Option<(T, T) -> bool>, a: T, b: T) {
    if comparer.Some? then comparer.value(a, b) else a == b
  }

  /** `Enumerable.Contains(source, value, comparer)`. */
  function Contains<T(==)>(s: seq<T>, x: T, comparer: Option<(T, T) -> bool>): (r: bool)
    ensures r <==> exists i :: 0 <= i < |s| && Same(comparer, s[i], x)
  {
    if s == [] then false
    else
      Same(comparer, s[0], x) || (assert forall i :: 0 < i < |s| ==> s[i] == s[1..][i - 1]; Contains(s[1..], x, comparer))
  }

  /** `In(args)`: membership, and false for a null or empty list. */
  function In<T(==)>(x: T, args: Option<seq<T>>): (r: bool)
    ensures r <==> args.Some? && x in args.value
  {
    InWith(x, None, args)
  }

  // ---------------------------------------------------------------------------
  // Types

  /** The CLR types the filter distinguishes. `ValueType` is not modelled: a
      struct's base is taken to be `object`. */
  datatype ClrType =
    | ObjectType
    | VoidType
    | TaskType
    | ValueTaskType
    | StringType
    | StreamType
    | TaskOf(result: ClrType)
    | ValueTaskOf(result: ClrType)
    | ClassType(name: string, baseType: ClrType)

  /** How deeply a type nests: its generic argument or base type is shallower. */
  function Depth(t: ClrType): nat {
    match t
    case TaskOf(r) => 1 + Depth(r)
    case ValueTaskOf(r) => 1 + Depth(r)
    case ClassType(_, b) => 1 + Depth(b)
    case _ => 0
  }

  /** `Type.IsSubclassOf`: `target` is a proper ancestor of `t`. */
  function IsSubclassOf(t: ClrType, target: ClrType): (r: bool)
    ensures t == ObjectType ==> !r
    ensures t != ObjectType && target == ObjectType ==> r
    ensures t.ClassType? && t.baseType == target ==> r
    ensures r && (t.ClassType? || t.TaskOf?) ==> Depth(target) < Depth(t)
    ensures r ==> t != target
  {
    match t
    case ObjectType => false
    case ClassType(_, b) => b == target || IsSubclassOf(b, target)
    case TaskOf(_) => target == TaskType || target == ObjectType
    case _ => target == ObjectType
  }

  /** `IsClassOf`: the type itself or one of its subclasses. */
  function IsClassOf(t: ClrType, target: ClrType): (r: bool)
    ensures t == target ==> r
    ensures target == ObjectType ==> r
    ensures t == ObjectType ==> (r <==> target == ObjectType)
  {
    t == target || IsSubclassOf(t, target)
  }

  /** Two types that are each a class of the other are the same type: the
      hierarchy has no cycles. */
  lemma IsClassOfAntisymmetric(a: ClrType, b: ClrType)
    requires IsClassOf(a, b) && IsClassOf(b, a)
    ensures a == b
  {
  }

  /** `IsClassOf` is transitive along the class hierarchy. */
  lemma {:induction false} IsClassOfTransitive(a: ClrType, b: ClrType, c: ClrType)
    requires IsClassOf(a, b) && IsClassOf(b, c)
    ensures IsClassOf(a, c)
  {
    if a != b {
      match a
      case ClassType(_, p) =>
        if p != b {
          IsClassOfTransitive(p, b, c);
        }
      case TaskOf(_) =>
        if b == TaskType {
          assert c == TaskType || c == ObjectType;
        }
      case _ =>
    }
  }

  /** `IsVoidOrTask`: `void`, `Task` or `ValueTask`. */
  function IsVoidOrTask(t: ClrType): (r: bool)
    ensures r <==> t == VoidType || t == TaskType || t == ValueTaskType
  {
    In(t, Some([VoidType, TaskType, ValueTaskType]))
  }

  /** `GetTypeOrTaskGenericType`: unwraps one level of `Task<T>` or `ValueTask<T>`. */
  function GetTypeOrTaskGenericType(t: ClrType): (r: ClrType)
    ensures t == TaskOf(r) || t == ValueTaskOf(r) || r == t
    ensures r == t <==> !t.TaskOf? && !t.ValueTaskOf?
  {
    match t
    case TaskOf(r) => assert Depth(r) < Depth(t); r
    case ValueTaskOf(r) => assert Depth(r) < Depth(t); r
    case _ => t
  }

  // ---------------------------------------------------------------------------
  // JSON

  /** An object handed to the serialiser. A `null` reference at the top is
      `None`; `Null` is a null nested inside an object or array. */
  datatype Value =
    | Null
    | Bool(b: bool)
    | Number(n: int)
    | Str(s: string)
    | Array(items: seq<Value>)
    | Object(fields: seq<Field>)

  datatype Field = Field(name: string, value: Value)

  /** `ToJson`: `null` for a `null` source, otherwise what the serialiser writes. */
  function ToJson(source: Option<Value>, serialize: Value -> string): (r: Option<string>)
    ensures r.None? <==> source.None?
    ensures source.Some? ==> r == Some(serialize(source.value))
  {
    if source.None? then None else Some(serialize(source.value))
  }

  // ---------------------------------------------------------------------------
  // Attributes

  /** All attributes of one concrete attribute type declared on one member. */
  datatype AttributeGroup<A> = AttributeGroup(attributeType: string, attributes: seq<A>)

  /** The attribute types present in `groups`. */
  function TypesOf<A(==,!new)>(groups: seq<AttributeGroup<A>>): set<string> {
    set i | 0 <= i < |groups| :: groups[i].attributeType
  }

  /** The controller's groups whose type the action does not declare, in order. */
  function ControllerOnly<A(==,!new)>(controller: seq<AttributeGroup<A>>, actionTypes: set<string>): (r: seq<AttributeGroup<A>>)
    ensures forall g :: g in r <==> g in controller && g.attributeType !in actionTypes
  {
    if controller == [] then []
    else
      var rest := ControllerOnly(controller[1..], actionTypes);
      assert forall g :: g in controller <==> g == controller[0] || g in controller[1..];
      if controller[0].attributeType in actionTypes then rest else [controller[0]] + rest
  }

  /** The merge of lines 31-34: the action's groups, then every controller group
      of a type the action does not declare. The action's entries win. */
  function MergeAttributes<A(==,!new)>(action: seq<AttributeGroup<A>>, controller: seq<AttributeGroup<A>>): (r: seq<AttributeGroup<A>>)
    ensures |r| >= |action| && r[..|action|] == action
    ensures forall g :: g in r <==> g in action || (g in controller && g.attributeType !in TypesOf(action))
  {
    action + ControllerOnly(controller, TypesOf(action))
  }

  /** `SelectMany`: every attribute of every group, in order. */
  function Flatten<A(==,!new)>(groups: seq<AttributeGroup<A>>): (r: seq<A>)
    ensures forall a :: a in r <==> exists g :: g in groups && a in g.attributes
  {
    if groups == [] then []
    else
      assert forall g :: g in groups <==> g == groups[0] || g in groups[1..];
      groups[0].attributes + Flatten(groups[1..])
  }

  /** The first attribute of the merged list: the action's own, when it has any. */
  lemma {:induction false} ActionAttributeFirst<A(!new)>(action: seq<AttributeGroup<A>>, controller: seq<AttributeGroup<A>>)
    requires Flatten(action) != []
    ensures Flatten(MergeAttributes(action, controller)) != []
    ensures Flatten(MergeAttributes(action, controller))[0] == Flatten(action)[0]
  {
    FlattenConcat(action, ControllerOnly(controller, TypesOf(action)));
  }

  /** Without attributes of its own, the action's merged list is the
      controller's attributes of the types it does not declare. */
  lemma ControllerFallback<A(!new)>(action: seq<AttributeGroup<A>>, controller: seq<AttributeGroup<A>>)
    requires Flatten(action) == []
    ensures Flatten(MergeAttributes(action, controller)) == Flatten(ControllerOnly(controller, TypesOf(action)))
  {
    FlattenConcat(action, ControllerOnly(controller, TypesOf(action)));
  }

  /** An action that declares no attribute type hides none of the controller's. */
  lemma {:induction false} ControllerOnlyNoTypes<A(!new)>(controller: seq<AttributeGroup<A>>)
    ensures ControllerOnly(controller, {}) == controller
  {
    if controller != [] {
      ControllerOnlyNoTypes(controller[1..]);
      assert controller == [controller[0]] + controller[1..];
    }
  }

  /** `SelectMany` distributes over concatenation. */
  lemma {:induction false} FlattenConcat<A(!new)>(a: seq<AttributeGroup<A>>, b: seq<AttributeGroup<A>>)
    ensures Flatten(a + b) == Flatten(a) + Flatten(b)
  {
    if a != [] {
      assert (a + b)[1..] == a[1..] + b;
      FlattenConcat(a[1..], b);
    } else {
      assert a + b == b;
    }
  }
}

=== FILE: filter.dfy ===
/** `RedisCacheFilter`: the action filter that decides whether an action's
    response is cached, builds the key and configuration, and serves the
    response through `GetOrAdd`. The action itself (`next()`) is a parameter:
    the result it produces, or `None` when it throws. `next()` does not pass
    an action's exception on: it records it in the executed context, whose
    result is then `null`. */
module Filter {
  import opened Wrappers
  import opened Text
  import opened Extensions
  import opened CacheKey
  import opened ResetBy
  import opened Settings
  import opened Attribute
  import opened Manager

  /** What the filter reads from a controller action descriptor. */
  datatype Descriptor = Descriptor(
    returnType: ClrType,
    actionAttributes: seq<AttributeGroup<RedisCacheAttribute>>,
    controllerAttributes: seq<AttributeGroup<RedisCacheAttribute>>,
    template: Option<string>)

  /** The HTTP request: its method and its parsed query string. */
  datatype HttpRequest = HttpRequest(httpMethod: string, query: Option<Query>)

  /** One action invocation: a controller action descriptor (or another kind
      of descriptor), the request and the bound action arguments. */
  datatype Invocation = Invocation(descriptor: Option<Descriptor>, request: HttpRequest, arguments: Option<seq<Field>>)

  /** The process-wide values the filter reads: `GlobalVars.ServiceName`,
      `GlobalVars.RedisCacheSettings` and the serialiser and culture order. */
  datatype Environment = Environment(serviceName: Option<string>, settings: Option<RedisCacheSettings>, host: Host)

  /** The action results the filter distinguishes. */
  datatype ActionResult =
    | ObjectResult(value: Option<Value>)
    | ContentResult(content: Option<string>, contentType: Option<string>)
    | OtherResult

  /** `ActionResultType`: how a cached string goes back to the client. */
  datatype ResultKind = PlainText | Json

  const PlainTextType := "text/plain; charset=utf-8"
  const JsonType := "application/json; charset=utf-8"

  /** An action qualifies when it returns something other than `void`, `Task`,
      `ValueTask` or a `Stream`. */
  function Eligible(returnType: ClrType): (r: bool)
    ensures r ==> returnType != VoidType && returnType != TaskType && returnType != ValueTaskType
    ensures r ==> returnType != StreamType
    ensures r <==> !IsVoidOrTask(returnType) && !IsClassOf(returnType, StreamType)
  {
    !IsVoidOrTask(returnType) && !IsClassOf(returnType, StreamType)
  }

  /** A class derived from `Stream`, however deep, never qualifies. */
  lemma StreamsNeverEligible(t: ClrType)
    requires IsClassOf(t, StreamType)
    ensures !Eligible(t)
    ensures forall n :: !Eligible(ClassType(n, t))
  {
  }

  /** `GetAttributes<RedisCacheAttribute>().FirstOrDefault()`: the action's own
      first attribute when it has one, otherwise the first one from a
      controller attribute type the action does not declare. */
  function FirstAttribute(d: Descriptor): (r: Option<RedisCacheAttribute>)
    ensures Flatten(d.actionAttributes) != [] ==> r == Some(Flatten(d.actionAttributes)[0])
    ensures r.Some? ==> exists g :: g in d.actionAttributes + d.controllerAttributes && r.value in g.attributes
    ensures (forall g :: g in d.actionAttributes + d.controllerAttributes ==> g.attributes == []) ==> r.None?
    ensures Flatten(d.actionAttributes) == [] ==>
      var inherited := Flatten(ControllerOnly(d.controllerAttributes, TypesOf(d.actionAttributes)));
      r == if inherited == [] then None else Some(inherited[0])
    ensures d.actionAttributes == [] ==>
      r == if Flatten(d.controllerAttributes) == [] then None else Some(Flatten(d.controllerAttributes)[0])
  {
    var merged := Flatten(MergeAttributes(d.actionAttributes, d.controllerAttributes));
    if Flatten(d.actionAttributes) != [] then
      ActionAttributeFirst(d.actionAttributes, d.controllerAttributes);
      assert merged[0] in merged;
      Some(merged[0])
    else
      ControllerFallback(d.actionAttributes, d.controllerAttributes);
      ControllerOnlyNoTypes(d.controllerAttributes);
      assert d.actionAttributes == [] ==> TypesOf(d.actionAttributes) == {};
      if merged == [] then None
      else
        assert merged[0] in merged;
        Some(merged[0])
  }

  /** Line 25: an enabled attribute turns caching on; with no attribute at all,
      the global switch turns it on for GET requests, in any casing. */
  function ShouldCache(attr: Option<RedisCacheAttribute>, settings: RedisCacheSettings, httpMethod: string): (r: bool)
    ensures attr.Some? ==> (r <==> attr.value.enabled)
    ensures attr.None? ==> (r <==> settings.applyToAllGetRequests && Lower(httpMethod) == "get")
  {
    (attr.Some? && attr.value.enabled)
    || (attr.None? && settings.applyToAllGetRequests && EqualsIgnoreCase(httpMethod, "GET"))
  }

  /** Lines 23 and 67-73: a new disabled attribute, then enabled, given the
      attribute's configuration or the global one, and the attribute's reset
      rules written through the `RedisCacheResetBy` getter. The field is
      still `null` at that point, so both writes are lost. */
  function InitializeConfig(attr: Option<RedisCacheAttribute>, settings: RedisCacheSettings): (config: RedisCacheAttribute)
    ensures config.enabled
    ensures attr.Some? && attr.value.redisConfiguration.Some? ==> config.redisConfiguration == attr.value.redisConfiguration
    ensures attr.None? || attr.value.redisConfiguration.None? ==> config.redisConfiguration == Some(GetRedisConfiguration(settings))
    ensures GetResetBy(config) == EmptyResetBy
  {
    var config := NewAttributeWith(false).(enabled := true);
    var chosen := if attr.Some? && attr.value.redisConfiguration.Some? then attr.value.redisConfiguration.value
                  else GetRedisConfiguration(settings);
    var configured := config.(redisConfiguration := Some(chosen));
    var withTypes := AssignEntityTypes(configured, if attr.Some? then GetResetBy(attr.value).entityTypes else None);
    AssignRoutes(withTypes, if attr.Some? then GetResetBy(attr.value).microServiceRoutes else None)
  }

  /** The configuration a prepared call runs with. */
  function ConfigOf(config: RedisCacheAttribute, settings: RedisCacheSettings): RedisConfiguration {
    config.redisConfiguration.GetOr(GetRedisConfiguration(settings))
  }

  /** Lines 29-31: service, method, route template and arguments; the query
      string only when the configuration asks for it. */
  function BuildKey(serviceName: Option<string>, request: HttpRequest, d: Descriptor,
                    arguments: Option<seq<Field>>, config: RedisConfiguration): (k: RedisCacheKey)
    ensures k.serviceName == serviceName && k.httpMethod == Some(request.httpMethod) && k.route == d.template
    ensures k.arguments == arguments
    ensures k.query == if config.useExtraQueryStringAsRedisKey then request.query else None
  {
    var k := RedisCacheKey(serviceName, Some(request.httpMethod), d.template, arguments, None);
    if config.useExtraQueryStringAsRedisKey then k.(query := request.query) else k
  }

  /** Unless the configuration includes it, the query string does not reach
      the Redis key: requests that differ only there share one entry. */
  lemma QueryIgnoredUnlessConfigured(serviceName: Option<string>, r1: HttpRequest, r2: HttpRequest, d: Descriptor,
                                     arguments: Option<seq<Field>>, config: RedisConfiguration, host: Host)
    requires r1.httpMethod == r2.httpMethod && !config.useExtraQueryStringAsRedisKey
    ensures ToString(BuildKey(serviceName, r1, d, arguments, config), host) ==
            ToString(BuildKey(serviceName, r2, d, arguments, config), host)
  {
  }

  /** `GetSetResult`: plain text for actions returning a string (or a task of
      one), JSON for everything else. */
  function ResultKindOf(returnType: ClrType): (kind: ResultKind)
    ensures kind == PlainText <==>
      returnType == StringType || returnType == TaskOf(StringType) || returnType == ValueTaskOf(StringType)
  {
    if GetTypeOrTaskGenericType(returnType) == StringType then PlainText else Json
  }

  /** `getResultValue`: an object result as JSON, a content result's text,
      `null` for any other result. */
  function GetResultValue(result: ActionResult, serialize: Value -> string): (r: Option<string>)
    ensures result.ObjectResult? ==> r == ToJson(result.value, serialize)
    ensures result.ContentResult? ==> r == result.content
    ensures result.OtherResult? ==> r.None?
  {
    match result
    case ObjectResult(v) => ToJson(v, serialize)
    case ContentResult(c, _) => c
    case OtherResult => None
  }

  /** The `Set` half: a content result with the kind's content type. */
  function SetResult(kind: ResultKind, value: Option<string>): (r: ActionResult)
    ensures r.ContentResult? && r.content == value
    ensures r.contentType == Some(if kind == PlainText then PlainTextType else JsonType)
  {
    ContentResult(value, Some(if kind == PlainText then PlainTextType else JsonType))
  }

  /** `Get` after `Set` gives back the cached string, whatever the kind. */
  lemma GetAfterSet(kind: ResultKind, value: Option<string>, serialize: Value -> string)
    ensures GetResultValue(SetResult(kind, value), serialize) == value
  {
  }

  /** Everything lines 17-33 decide before the cache is consulted. */
  datatype Plan = Plan(key: RedisCacheKey, kind: ResultKind, config: RedisCacheAttribute, configuration: RedisConfiguration)

  /** The cacheable case of lines 17-25. */
  predicate Cacheable(env: Environment, inv: Invocation) {
    && inv.descriptor.Some?
    && Eligible(inv.descriptor.value.returnType)
    && ShouldCache(FirstAttribute(inv.descriptor.value), GlobalSettings(env.settings), inv.request.httpMethod)
  }

  /** Lines 17-33: `None` when the filter lets the action run untouched. */
  function PlanFor(env: Environment, inv: Invocation): (p: Option<Plan>)
    ensures p.Some? <==> Cacheable(env, inv)
    ensures p.Some? ==> GetResetBy(p.value.config) == EmptyResetBy
    ensures p.Some? ==> p.value.key.route == inv.descriptor.value.template
  {
    if !Cacheable(env, inv) then None
    else
      var d := inv.descriptor.value;
      var settings := GlobalSettings(env.settings);
      var config := InitializeConfig(FirstAttribute(d), settings);
      var configuration := ConfigOf(config, settings);
      Some(Plan(BuildKey(env.serviceName, inv.request, d, inv.arguments, configuration),
                ResultKindOf(d.returnType), config, configuration))
  }

  /** What the filter did with a request. */
  datatype Response = Served(result: ActionResult) | PassedThrough

  /** The final cache state, the response and how often the action ran. */
  datatype FilterRun = FilterRun(state: State, response: Response, actionRuns: nat)

  /** The factory of lines 42-46: `await next()` then `getResultValue` of the
      executed context's result. A throwing action leaves that result `null`,
      so the factory never throws and yields `null` for it. */
  function Produce(action: Option<ActionResult>, serialize: Value -> string): (p: Produced)
    ensures p.Produced?
    ensures action.None? ==> p.value.None?
    ensures action.Some? ==> p.value == GetResultValue(action.value, serialize)
  {
    if action.None? then Produced(None)
    else Produced(GetResultValue(action.value, serialize))
  }

  /** Lines 35-64 for a prepared call: create the manager, `GetOrAdd` through
      the action, and assign the cached string as the result. When the manager fails
      (here: the expiry overflows `DateTime`) the error is swallowed and the
      action runs as if uncached. The factory never throws, so the action
      runs at most once. */
  function Run(s: State, env: Environment, plan: Plan, now: int, action: Option<ActionResult>): (r: FilterRun)
    requires 0 <= now <= MaxTicks
    ensures r.state.created
    ensures r.actionRuns <= 1
    ensures r.response.Served? ==> r.response.result.ContentResult?
    ensures r.response.PassedThrough? <==> !ExpiryFits(Some(plan.configuration), now)
    ensures r.response.PassedThrough? ==> r.actionRuns == 1 && r.state == GetOrCreate(s)
  {
    var s1 := GetOrCreate(s);
    var c := GetOrAddKey(s1, plan.key, env.host, Some(GetResetBy(plan.config)), Some(plan.configuration),
                         SweepEnabled(env.settings), now, Produce(action, env.host.serialize));
    var runs := if c.invoked then 1 else 0;
    match c.outcome
    case Returned(v) => FilterRun(c.state, Served(SetResult(plan.kind, v)), runs)
    case Failed => FilterRun(c.state, PassedThrough, runs + 1)
  }

  /** `OnActionExecutionAsync`. */
  function OnActionExecution(s: State, env: Environment, inv: Invocation, now: int, action: Option<ActionResult>): (r: FilterRun)
    requires 0 <= now <= MaxTicks
    ensures !Cacheable(env, inv) ==> r == FilterRun(s, PassedThrough, 1)
    ensures Cacheable(env, inv) ==> r.state.created
    ensures Cacheable(env, inv) ==>
      (r.response.PassedThrough? <==> !ExpiryFits(Some(PlanFor(env, inv).value.configuration), now))
    ensures r.actionRuns <= 1
  {
    match PlanFor(env, inv)
    case None => FilterRun(s, PassedThrough, 1)
    case Some(plan) => Run(s, env, plan, now, action)
  }

  /** A cacheable invocation is one `GetOrAddAsync` on the plan's Redis key
      and route key, with the reset rules `InitializeConfig` left, which are
      always empty. */
  lemma CacheableRunsGetOrAdd(s: State, env: Environment, inv: Invocation, now: int, action: Option<ActionResult>)
    requires 0 <= now <= MaxTicks && Cacheable(env, inv)
    ensures var p := PlanFor(env, inv).value;
      var q := Request(ToString(p.key, env.host), RouteKey(p.key), Some(EmptyResetBy), Some(p.configuration));
      OnActionExecution(s, env, inv, now, action).state
        == GetOrAdd(GetOrCreate(s), q, SweepEnabled(env.settings), now, Produce(action, env.host.serialize)).state
  {
  }

  /** A cached response is served without running the action, as the stored
      text with the content type of the action's return type. */
  lemma HitSkipsAction(s: State, env: Environment, inv: Invocation, now: int, action: Option<ActionResult>)
    requires 0 <= now <= MaxTicks
    requires Cacheable(env, inv)
    requires var p := PlanFor(env, inv).value;
      ExpiryFits(Some(p.configuration), now) && ToString(p.key, env.host) in s.store
    ensures var p := PlanFor(env, inv).value;
      OnActionExecution(s, env, inv, now, action) ==
        var r := OnActionExecution(s, env, inv, now, action);
        FilterRun(r.state, Served(SetResult(p.kind, Some(s.store[ToString(p.key, env.host)].text))), 0)
  {
  }

  /** On a miss the action runs once, its string is stored, and the filter
      assigns that string, round-tripped through the sentinels. */
  lemma MissRunsActionOnce(s: State, env: Environment, inv: Invocation, now: int, result: ActionResult)
    requires 0 <= now <= MaxTicks
    requires Cacheable(env, inv)
    requires var p := PlanFor(env, inv).value;
      ExpiryFits(Some(p.configuration), now) && ToString(p.key, env.host) !in s.store
    ensures var p := PlanFor(env, inv).value;
      var r := OnActionExecution(s, env, inv, now, Some(result));
      var v := GetResultValue(result, env.host.serialize);
      && r.actionRuns == 1
      && r.response == Served(SetResult(p.kind, StringValue(ToRedisValue(v))))
      && ToString(p.key, env.host) in r.state.store
  {
  }

  /** A throwing action on a miss runs once, its `null` is stored as the null
      sentinel, and the filter assigns the `null` result. */
  lemma FailedActionCachesNull(s: State, env: Environment, inv: Invocation, now: int)
    requires 0 <= now <= MaxTicks
    requires Cacheable(env, inv)
    requires var p := PlanFor(env, inv).value;
      ExpiryFits(Some(p.configuration), now) && ToString(p.key, env.host) !in s.store
    ensures var p := PlanFor(env, inv).value;
      var key := ToString(p.key, env.host);
      var r := OnActionExecution(s, env, inv, now, None);
      && r.actionRuns == 1
      && r.response == Served(SetResult(p.kind, None))
      && key in r.state.store && r.state.store[key].text == NullMarker
  {
  }

  /** Once a throwing action's `null` is cached, a later request for the same
      invocation is served the null sentinel text and the action does not
      run, until the entry is reset. */
  lemma FailurePoisonsKey(s: State, env: Environment, inv: Invocation, now1: int, now2: int, action: Option<ActionResult>)
    requires 0 <= now1 <= MaxTicks && 0 <= now2 <= MaxTicks
    requires Cacheable(env, inv)
    requires var p := PlanFor(env, inv).value;
      && ExpiryFits(Some(p.configuration), now1) && ExpiryFits(Some(p.configuration), now2)
      && ToString(p.key, env.host) !in s.store
    ensures var p := PlanFor(env, inv).value;
      var first := OnActionExecution(s, env, inv, now1, None);
      var second := OnActionExecution(first.state, env, inv, now2, action);
      second.actionRuns == 0 && second.response == Served(SetResult(p.kind, Some(NullMarker)))
  {
    var first := OnActionExecution(s, env, inv, now1, None);
    FailedActionCachesNull(s, env, inv, now1);
    HitSkipsAction(first.state, env, inv, now2, action);
  }
}

=== FILE: manager.dfy ===
/** `RedisManager`: the cache-aside engine as a sequential state machine.

    The Redis database is a map from key to stored entry, the pub/sub channel
    is an outbox of published routes delivered by an explicit step, and the
    static `requests` dictionary maps a key to its tracked item and
    relationship. The clock and the value factory's result are parameters. */
module Manager {
  import opened Wrappers
  import opened Text
  import opened Extensions
  import opened CacheKey
  import opened ResetBy
  import opened MutableItems
  import opened Settings
  import opened KeyRelationships

  /** `DateTime.MaxValue` in ticks. */
  const MaxTicks: int := 3155378975999999999

  /** A Redis string entry: text, time to live and the flags it was written with. */
  datatype Stored = Stored(text: string, expiry: Option<int>, flags: CommandFlags)

  /** The `requests` dictionary: one tracked item and relationship per key. */
  type Requests = map<string, (MutableItem<string>, Relationship)>

  datatype State = State(
    store: map<string, Stored>,
    requests: Requests,
    index: Index,
    outbox: seq<string>,
    created: bool)

  /** Before the first `GetOrCreate`: nothing stored, tracked or published. */
  const Initial: State := State(map[], map[], EmptyIndex, [], false)

  /** Buckets hold no duplicates and each tracked item is filed under its value. */
  ghost predicate Valid(s: State) {
    && ValidIndex(s.index)
    && forall k :: k in s.requests ==> s.requests[k].0.value == k
  }

  /** `GetOrCreate`: the instance exists from now on. */
  function GetOrCreate(s: State): (r: State)
    ensures r.created
    ensures r.(created := s.created) == s
  {
    s.(created := true)
  }

  function Elems(s: seq<string>): set<string> {
    set x | x in s
  }

  // ---------------------------------------------------------------------------
  // Resetting one key

  /** Buckets only lose members, and only members in `gone`. */
  ghost predicate BucketsShrink<K(!new)>(before: map<K, Bucket>, after: map<K, Bucket>, gone: set<string>) {
    && (forall k, w :: w in BucketOf(after, k) ==> w in BucketOf(before, k))
    && (forall k, w :: w in BucketOf(before, k) && w !in gone ==> w in BucketOf(after, k))
  }

  /** What resetting the keys `gone` does: they leave the store, the tracked
      map and the buckets; nothing else changes except that routes may be
      appended to the outbox. */
  ghost predicate ResetEffect(s: State, r: State, gone: set<string>) {
    && r.store == s.store - gone
    && r.requests == s.requests - gone
    && BucketsShrink(s.index.entityRequests, r.index.entityRequests, gone)
    && BucketsShrink(s.index.subRouteRequests, r.index.subRouteRequests, gone)
    && r.created == s.created
    && s.outbox <= r.outbox
    && (Valid(s) ==> Valid(r))
  }

  lemma ResetEffectTrans(a: State, b: State, c: State, g1: set<string>, g2: set<string>)
    requires ResetEffect(a, b, g1) && ResetEffect(b, c, g2)
    ensures ResetEffect(a, c, g1 + g2)
  {
    assert c.store == a.store - (g1 + g2);
    assert c.requests == a.requests - (g1 + g2);
  }

  /** The route a reset of `request` publishes: its relationship's own route
      when the request is tracked and that route is not blank. */
  function Published(s: State, request: string): seq<string> {
    if request in s.requests && !IsNullOrWhiteSpace(s.requests[request].1.pubRoute)
    then [s.requests[request].1.pubRoute.value]
    else []
  }

  /** `OnPubRoute`: publishes a route on the channel. */
  function OnPubRoute(s: State, route: string): (r: State)
    ensures r.outbox == s.outbox + [route]
    ensures r.(outbox := s.outbox) == s
  {
    s.(outbox := s.outbox + [route])
  }

  /** `Remove(request)`: drops the tracked relationship, if any, which unlinks
      the request from the buckets it names and publishes its route. */
  function Remove(s: State, request: string): (r: State)
    ensures r.store == s.store
    ensures r.requests == s.requests - {request}
    ensures request in s.requests ==>
      && (forall t :: t in s.requests[request].1.entityTypes ==> request !in BucketOf(r.index.entityRequests, t))
      && (forall p :: p in s.requests[request].1.subRoutes ==> request !in BucketOf(r.index.subRouteRequests, p))
    ensures request !in s.requests ==> r == s
    ensures BucketsShrink(s.index.entityRequests, r.index.entityRequests, {request})
    ensures BucketsShrink(s.index.subRouteRequests, r.index.subRouteRequests, {request})
    ensures r.outbox == s.outbox + Published(s, request)
    ensures r.created == s.created
    ensures Valid(s) ==> Valid(r)
  {
    if request in s.requests then
      var rel := s.requests[request].1;
      var (idx, published) := RemoveRequest(s.index, rel, request);
      s.(requests := s.requests - {request}, index := idx, outbox := s.outbox + published)
    else
      assert s.requests - {request} == s.requests;
      s
  }

  /** `OnResetRequest(request)`: deletes the key from Redis, then `Remove`s it. */
  function OnResetRequest(s: State, request: string): (r: State)
    ensures request !in r.store && request !in r.requests
    ensures r.outbox == s.outbox + Published(s, request)
    ensures ResetEffect(s, r, {request})
  {
    var deleted := s.(store := s.store - {request});
    var r := Remove(deleted, request);
    assert Valid(s) ==> Valid(deleted);
    r
  }

  /** Resets each request of `requests` in turn. */
  function ResetAll(s: State, requests: seq<string>): (r: State)
    ensures ResetEffect(s, r, Elems(requests))
    decreases |requests|
  {
    if requests == [] then
      assert s.store - {} == s.store && s.requests - {} == s.requests;
      s
    else
      var s1 := OnResetRequest(s, requests[0]);
      var r := ResetAll(s1, requests[1..]);
      ResetEffectTrans(s, s1, r, {requests[0]}, Elems(requests[1..]));
      assert Elems(requests) == {requests[0]} + Elems(requests[1..]);
      r
  }

  // ---------------------------------------------------------------------------
  // Group resets

  /** A reset's final state and the requests handed to `OnResetRequest`, in order. */
  datatype Reset = Reset(state: State, trace: seq<string>)

  /** `requests.Where(removed.Add)`: the requests not yet reset in this batch,
      each once. */
  function Fresh(snapshot: seq<string>, removed: set<string>): (r: seq<string>)
    ensures NoDup(r)
    ensures forall w :: w in r <==> w in snapshot && w !in removed
  {
    if snapshot == [] then []
    else
      assert forall w :: w in snapshot <==> w == snapshot[0] || w in snapshot[1..];
      if snapshot[0] in removed then Fresh(snapshot[1..], removed)
      else [snapshot[0]] + Fresh(snapshot[1..], removed + {snapshot[0]})
  }

  /** Empties the bucket of entity type `t`. */
  function ClearEntity(s: State, t: EntityType): (r: State)
    ensures BucketOf(r.index.entityRequests, t) == []
    ensures forall u :: u != t ==> BucketOf(r.index.entityRequests, u) == BucketOf(s.index.entityRequests, u)
    ensures r == s.(index := r.index) && r.index.subRouteRequests == s.index.subRouteRequests
    ensures Valid(s) ==> Valid(r)
  {
    s.(index := s.index.(entityRequests := s.index.entityRequests[t := []]))
  }

  lemma NoDupConcat(a: seq<string>, b: seq<string>)
    requires NoDup(a) && NoDup(b)
    requires forall w :: w in a ==> w !in b
    ensures NoDup(a + b)
  {
    forall i, j | 0 <= i < j < |a + b| ensures (a + b)[i] != (a + b)[j] {
      if i < |a| && j >= |a| {
        assert (a + b)[i] in a && (a + b)[j] in b;
      }
    }
  }

  /** The loop of `ResetEntityTypes` over `types`, with the batch's `removed`
      set: each request is reset at most once and never one already removed. */
  function DrainEntities(s: State, types: seq<EntityType>, removed: set<string>): (r: Reset)
    ensures NoDup(r.trace)
    ensures forall w :: w in r.trace ==> w !in removed
    ensures r.state.store == s.store - Elems(r.trace)
    ensures r.state.requests == s.requests - Elems(r.trace)
    ensures r.state.created == s.created
    ensures s.outbox <= r.state.outbox
    ensures Valid(s) ==> Valid(r.state)
    decreases |types|
  {
    if types == [] then
      assert s.store - {} == s.store && s.requests - {} == s.requests;
      Reset(s, [])
    else
      var batch := Fresh(BucketOf(s.index.entityRequests, types[0]), removed);
      var s2 := ClearEntity(ResetAll(s, batch), types[0]);
      var rest := DrainEntities(s2, types[1..], removed + Elems(batch));
      NoDupConcat(batch, rest.trace);
      SubtractConcat(s.store, s.requests, batch, rest.trace);
      Reset(rest.state, batch + rest.trace)
  }

  /** Removing the keys of `a` and then those of `b` removes those of `a + b`. */
  lemma SubtractConcat<V, W>(store: map<string, V>, requests: map<string, W>, a: seq<string>, b: seq<string>)
    ensures store - Elems(a) - Elems(b) == store - Elems(a + b)
    ensures requests - Elems(a) - Elems(b) == requests - Elems(a + b)
  {
    assert Elems(a + b) == Elems(a) + Elems(b);
  }

  /** One pass of the drain, for the type `t`: what it does to the buckets. */
  lemma DrainStep(s: State, t: EntityType, batch: seq<string>)
    ensures var s2 := ClearEntity(ResetAll(s, batch), t);
      && BucketOf(s2.index.entityRequests, t) == []
      && (forall u, w :: w in BucketOf(s2.index.entityRequests, u) ==> w in BucketOf(s.index.entityRequests, u))
      && (forall u, w :: u != t && w in BucketOf(s.index.entityRequests, u) && w !in batch ==>
            w in BucketOf(s2.index.entityRequests, u))
      && BucketsShrink(s.index.subRouteRequests, s2.index.subRouteRequests, Elems(batch))
  {
    var s1 := ResetAll(s, batch);
    var s2 := ClearEntity(s1, t);
    assert BucketsShrink(s.index.entityRequests, s1.index.entityRequests, Elems(batch));
    assert BucketOf(s2.index.entityRequests, t) == [];
    assert forall u, w :: w in BucketOf(s2.index.entityRequests, u) ==> w in BucketOf(s.index.entityRequests, u);
    forall u, w | u != t && w in BucketOf(s.index.entityRequests, u) && w !in batch
      ensures w in BucketOf(s2.index.entityRequests, u)
    {
      assert w !in Elems(batch);
    }
    assert BucketsShrink(s.index.subRouteRequests, s2.index.subRouteRequests, Elems(batch));
  }

  /** After a drain the listed buckets are empty and no bucket has gained a member. */
  lemma {:induction false} DrainClears(s: State, types: seq<EntityType>, removed: set<string>)
    ensures forall t, w :: t in types ==> w !in BucketOf(DrainEntities(s, types, removed).state.index.entityRequests, t)
    ensures forall t, w :: w in BucketOf(DrainEntities(s, types, removed).state.index.entityRequests, t) ==>
      w in BucketOf(s.index.entityRequests, t)
    decreases |types|
  {
    if types != [] {
      var batch := Fresh(BucketOf(s.index.entityRequests, types[0]), removed);
      var s2 := ClearEntity(ResetAll(s, batch), types[0]);
      var tl, rm := types[1..], removed + Elems(batch);
      var rest := DrainEntities(s2, tl, rm);
      DrainStep(s, types[0], batch);
      DrainClears(s2, tl, rm);
      var r := DrainEntities(s, types, removed);
      assert r.state == rest.state;
      forall t, w | t in types ensures w !in BucketOf(r.state.index.entityRequests, t) {
        if t != types[0] {
          assert t in tl;
        }
      }
    }
  }

  /** A drain leaves unlisted buckets and route buckets alone except for the
      requests it reset. */
  lemma {:induction false} DrainKeeps(s: State, types: seq<EntityType>, removed: set<string>)
    ensures forall t, w :: t !in types && w in BucketOf(s.index.entityRequests, t) && w !in DrainEntities(s, types, removed).trace ==>
      w in BucketOf(DrainEntities(s, types, removed).state.index.entityRequests, t)
    ensures BucketsShrink(s.index.subRouteRequests, DrainEntities(s, types, removed).state.index.subRouteRequests,
      Elems(DrainEntities(s, types, removed).trace))
    decreases |types|
  {
    if types != [] {
      var batch := Fresh(BucketOf(s.index.entityRequests, types[0]), removed);
      var s2 := ClearEntity(ResetAll(s, batch), types[0]);
      var tl, rm := types[1..], removed + Elems(batch);
      var rest := DrainEntities(s2, tl, rm);
      DrainStep(s, types[0], batch);
      DrainKeeps(s2, tl, rm);
      var r := DrainEntities(s, types, removed);
      assert r.trace == batch + rest.trace && r.state == rest.state;
      forall t, w | t !in types && w in BucketOf(s.index.entityRequests, t) && w !in r.trace
        ensures w in BucketOf(r.state.index.entityRequests, t)
      {
        assert t != types[0] && t !in tl;
      }
      forall p, w | w in BucketOf(s.index.subRouteRequests, p) && w !in Elems(r.trace)
        ensures w in BucketOf(r.state.index.subRouteRequests, p)
      {
        assert w !in Elems(batch) && w !in Elems(rest.trace);
      }
    }
  }

  /** A drain resets every request of the listed buckets not already removed. */
  lemma {:induction false} DrainComplete(s: State, types: seq<EntityType>, removed: set<string>)
    ensures forall t, w :: t in types && w in BucketOf(s.index.entityRequests, t) && w !in removed ==>
      w in DrainEntities(s, types, removed).trace
    decreases |types|
  {
    if types != [] {
      var batch := Fresh(BucketOf(s.index.entityRequests, types[0]), removed);
      var s2 := ClearEntity(ResetAll(s, batch), types[0]);
      var tl, rm := types[1..], removed + Elems(batch);
      var rest := DrainEntities(s2, tl, rm);
      DrainStep(s, types[0], batch);
      DrainComplete(s2, tl, rm);
      var r := DrainEntities(s, types, removed);
      assert r.trace == batch + rest.trace;
      forall t, w | t in types && w in BucketOf(s.index.entityRequests, t) && w !in removed
        ensures w in r.trace
      {
        if w !in batch && t != types[0] {
          assert t in tl && w !in rm;
        }
      }
    }
  }

  /** A drain resets only requests of the listed buckets. */
  lemma {:induction false} DrainPrecise(s: State, types: seq<EntityType>, removed: set<string>)
    ensures forall w :: w in DrainEntities(s, types, removed).trace ==>
      exists t :: t in types && w in BucketOf(s.index.entityRequests, t)
    decreases |types|
  {
    if types != [] {
      var batch := Fresh(BucketOf(s.index.entityRequests, types[0]), removed);
      var s2 := ClearEntity(ResetAll(s, batch), types[0]);
      var tl, rm := types[1..], removed + Elems(batch);
      var rest := DrainEntities(s2, tl, rm);
      DrainStep(s, types[0], batch);
      DrainPrecise(s2, tl, rm);
      var r := DrainEntities(s, types, removed);
      assert r.trace == batch + rest.trace;
      forall w | w in r.trace
        ensures exists t :: t in types && w in BucketOf(s.index.entityRequests, t)
      {
        if w in batch {
          assert types[0] in types;
        } else {
          assert w in rest.trace;
          var t :| t in tl && w in BucketOf(s2.index.entityRequests, t);
          assert t in types;
        }
      }
    }
  }

  /** `ResetEntityTypes`: nothing for `null`; otherwise every request in a
      listed bucket is reset exactly once, the listed buckets end empty, and
      other buckets lose only the requests reset. */
  function ResetEntityTypes(s: State, types: Option<seq<EntityType>>): (r: Reset)
    ensures types.None? ==> r == Reset(s, [])
    ensures NoDup(r.trace)
    ensures r.state.store == s.store - Elems(r.trace)
    ensures r.state.requests == s.requests - Elems(r.trace)
    ensures types.Some? ==> forall w :: w in r.trace <==>
      exists t :: t in types.value && w in BucketOf(s.index.entityRequests, t)
    ensures types.Some? ==> forall t, w :: t in types.value ==> w !in BucketOf(r.state.index.entityRequests, t)
    ensures forall t, w :: w in BucketOf(r.state.index.entityRequests, t) ==> w in BucketOf(s.index.entityRequests, t)
    ensures types.Some? ==> forall t, w :: t !in types.value && w in BucketOf(s.index.entityRequests, t) && w !in r.trace ==>
      w in BucketOf(r.state.index.entityRequests, t)
    ensures BucketsShrink(s.index.subRouteRequests, r.state.index.subRouteRequests, Elems(r.trace))
    ensures Valid(s) ==> Valid(r.state)
  {
    if types.None? then
      assert s.store - {} == s.store && s.requests - {} == s.requests;
      Reset(s, [])
    else
      DrainClears(s, types.value, {});
      DrainKeeps(s, types.value, {});
      DrainComplete(s, types.value, {});
      DrainPrecise(s, types.value, {});
      DrainEntities(s, types.value, {})
  }

  /** `ResetSubRoute`: nothing for a blank route; otherwise each request of the
      route's bucket is reset, in bucket order, and the bucket ends empty. */
  function ResetSubRoute(s: State, route: string): (r: Reset)
    ensures IsNullOrWhiteSpace(Some(route)) ==> r == Reset(s, [])
    ensures !IsNullOrWhiteSpace(Some(route)) ==> BucketOf(r.state.index.subRouteRequests, route) == []
    ensures !IsNullOrWhiteSpace(Some(route)) ==> forall w :: w in r.trace <==> w in BucketOf(s.index.subRouteRequests, route)
    ensures Valid(s) ==> NoDup(r.trace)
    ensures r.state.store == s.store - Elems(r.trace)
    ensures r.state.requests == s.requests - Elems(r.trace)
    ensures BucketsShrink(s.index.entityRequests, r.state.index.entityRequests, Elems(r.trace))
    ensures forall p, w :: p != route && w in BucketOf(s.index.subRouteRequests, p) && w !in r.trace ==>
      w in BucketOf(r.state.index.subRouteRequests, p)
    ensures forall p, w :: w in BucketOf(r.state.index.subRouteRequests, p) ==> w in BucketOf(s.index.subRouteRequests, p)
    ensures r.state.created == s.created
    ensures s.outbox <= r.state.outbox
    ensures Valid(s) ==> Valid(r.state)
  {
    if IsNullOrWhiteSpace(Some(route)) then
      assert s.store - {} == s.store && s.requests - {} == s.requests;
      Reset(s, [])
    else
      var snapshot := BucketOf(s.index.subRouteRequests, route);
      var s2 := ClearRoute(ResetAll(s, snapshot), route);
      assert Valid(s) ==> NoDup(snapshot);
      RouteStep(s, route, snapshot);
      Reset(s2, snapshot)
  }

  /** Empties the bucket of route `route`. */
  function ClearRoute(s: State, route: string): (r: State)
    ensures BucketOf(r.index.subRouteRequests, route) == []
    ensures forall p :: p != route ==> BucketOf(r.index.subRouteRequests, p) == BucketOf(s.index.subRouteRequests, p)
    ensures r == s.(index := r.index) && r.index.entityRequests == s.index.entityRequests
    ensures Valid(s) ==> Valid(r)
  {
    s.(index := s.index.(subRouteRequests := s.index.subRouteRequests[route := []]))
  }

  /** One reset of a route: other route buckets lose only the requests reset. */
  lemma RouteStep(s: State, route: string, snapshot: seq<string>)
    ensures forall p, w :: p != route && w in BucketOf(s.index.subRouteRequests, p) && w !in snapshot ==>
      w in BucketOf(ClearRoute(ResetAll(s, snapshot), route).index.subRouteRequests, p)
  {
    var s1 := ResetAll(s, snapshot);
    forall p, w | p != route && w in BucketOf(s.index.subRouteRequests, p) && w !in snapshot
      ensures w in BucketOf(ClearRoute(s1, route).index.subRouteRequests, p)
    {
      assert w !in Elems(snapshot);
      assert w in BucketOf(s1.index.subRouteRequests, p);
    }
  }

  /** A second reset of the same route finds an empty bucket and resets nothing. */
  lemma SubRouteResetIdempotent(s: State, route: string)
    ensures ResetSubRoute(ResetSubRoute(s, route).state, route).trace == []
  {
  }

  // ---------------------------------------------------------------------------
  // The bus

  /** `OnSubscribed`: a message on the channel resets the route it names. */
  function OnSubscribed(s: State, message: string): (r: Reset)
    ensures r == ResetSubRoute(s, message)
  {
    ResetSubRoute(s, message)
  }

  /** Delivers the oldest published route to this instance's subscription. */
  function DeliverNext(s: State): (r: Reset)
    ensures s.outbox == [] ==> r == Reset(s, [])
    ensures s.outbox != [] ==> r == OnSubscribed(s.(outbox := s.outbox[1..]), s.outbox[0])
    ensures s.outbox != [] && IsNullOrWhiteSpace(Some(s.outbox[0])) ==> r == Reset(s.(outbox := s.outbox[1..]), [])
    ensures s.outbox != [] && !IsNullOrWhiteSpace(Some(s.outbox[0])) ==>
      forall w :: w in r.trace <==> w in BucketOf(s.index.subRouteRequests, s.outbox[0])
    ensures s.outbox != [] ==> r.state.store == s.store - Elems(r.trace) && s.outbox[1..] <= r.state.outbox
  {
    if s.outbox == [] then Reset(s, []) else OnSubscribed(s.(outbox := s.outbox[1..]), s.outbox[0])
  }

  /** Resetting an entry publishes its route; delivering that message resets
      every entry that registered a dependency on the route. */
  lemma ResetCascades(s: State, a: string, b: string)
    requires s.outbox == []
    requires a in s.requests && !IsNullOrWhiteSpace(s.requests[a].1.pubRoute)
    requires b != a && b in BucketOf(s.index.subRouteRequests, s.requests[a].1.pubRoute.value)
    ensures var s1 := OnResetRequest(s, a);
      a !in s1.store && b !in DeliverNext(s1).state.store
  {
    var route := s.requests[a].1.pubRoute.value;
    var s1 := OnResetRequest(s, a);
    assert s1.outbox == [route];
    assert b in BucketOf(s1.index.subRouteRequests, route);
    var d := DeliverNext(s1);
    assert b in d.trace;
  }

  // ---------------------------------------------------------------------------
  // The sweep

  /** The keys the timer selects: tracked items whose `UpdateTime` has passed. */
  function Expired(s: State, now: int): (keys: set<string>)
    ensures forall k :: k in keys <==> k in s.requests && s.requests[k].0.updateTime < now
  {
    set k | k in s.requests && s.requests[k].0.updateTime < now
  }

  /** An item tracked with no expiry (`DateTime.MaxValue`) is never selected. */
  lemma NeverExpires(s: State, k: string, now: int)
    requires k in s.requests && s.requests[k].0.updateTime == MaxTicks
    requires now <= MaxTicks
    ensures k !in Expired(s, now)
  {
  }

  /** `TimerCallback`: resets every selected key, in the dictionary's
      unspecified order. */
  method Sweep(s: State, now: int) returns (r: State)
    ensures ResetEffect(s, r, Expired(s, now))
  {
    var selected := Expired(s, now);
    var pending := selected;
    ghost var done: set<string> := {};
    r := s;
    assert s.store - {} == s.store && s.requests - {} == s.requests;
    while pending != {}
      invariant pending + done == selected && pending !! done
      invariant ResetEffect(s, r, done)
      decreases pending
    {
      var k :| k in pending;
      var before := r;
      r := OnResetRequest(r, k);
      ResetEffectTrans(s, before, r, done, {k});
      pending := pending - {k};
      done := done + {k};
    }
  }

  // ---------------------------------------------------------------------------
  // After a save

  /** `AfterSaveChanges`: nothing before the instance exists, otherwise
      `ResetEntityTypes`. */
  function AfterSaveChanges(s: State, types: Option<seq<EntityType>>): (r: Reset)
    ensures !s.created ==> r == Reset(s, [])
    ensures s.created ==> r == ResetEntityTypes(s, types)
  {
    if !s.created then Reset(s, []) else ResetEntityTypes(s, types)
  }

  /** Entity reset is complete and precise: a stored key survives exactly when
      no listed bucket holds it. */
  lemma EntityResetPrecise(s: State, types: seq<EntityType>, k: string)
    requires s.created && k in s.store
    ensures k in AfterSaveChanges(s, Some(types)).state.store <==>
      !exists t :: t in types && k in BucketOf(s.index.entityRequests, t)
  {
  }

  // ---------------------------------------------------------------------------
  // GetOrAdd

  /** One call's inputs: the Redis key, the route key, the reset declaration
      and the action's configuration. */
  datatype Request = Request(
    key: string,
    routeKey: Option<string>,
    resetBy: Option<RedisCacheResetBy>,
    config: Option<RedisConfiguration>)

  /** `config?.Expiry`. */
  function ExpiryOf(config: Option<RedisConfiguration>): Option<int> {
    if config.Some? then config.value.expiry else None
  }

  /** `config?.CommandFlags ?? CommandFlags.None`. */
  function FlagsOf(config: Option<RedisConfiguration>): CommandFlags {
    if config.Some? && config.value.commandFlags.Some? then config.value.commandFlags.value else FlagsNone
  }

  /** `resetBy?.EntityTypes`, with `null` read as no types. */
  function EntityList(resetBy: Option<RedisCacheResetBy>): seq<EntityType> {
    if resetBy.Some? then resetBy.value.entityTypes.GetOr([]) else []
  }

  /** `resetBy?.MicroServiceRoutes?.Select(s => s.ToString())`, with `null` read
      as no routes. */
  function RouteList(resetBy: Option<RedisCacheResetBy>): seq<string> {
    if resetBy.Some? then RouteTags(resetBy.value.microServiceRoutes).GetOr([]) else []
  }

  /** `CreateTime.Add(Expiry)` stays within `DateTime`'s range (it throws otherwise). */
  predicate ExpiryFits(config: Option<RedisConfiguration>, now: int) {
    ExpiryOf(config).Some? ==> 0 <= now + ExpiryOf(config).value <= MaxTicks
  }

  /** The request item: created now, updated at the configured expiry, or
      never when there is none. */
  function TrackedItem(key: string, config: Option<RedisConfiguration>, now: int): (item: MutableItem<string>)
    requires 0 <= now <= MaxTicks && ExpiryFits(config, now)
    ensures item.value == key && item.createTime == now
    ensures 0 <= item.updateTime <= MaxTicks
    ensures ExpiryOf(config).Some? ==> item.updateTime - item.createTime == ExpiryOf(config).value
    ensures ExpiryOf(config).None? ==> item.updateTime == MaxTicks
  {
    var item := NewMutableItem(key, None, now);
    item.(updateTime := if ExpiryOf(config).Some? then item.createTime + ExpiryOf(config).value else MaxTicks)
  }

  /** The item and relationship built before the first read. */
  datatype Registered = Registered(state: State, item: MutableItem<string>, relationship: Relationship)

  /** Building the relationship files the key under every declared entity
      type and route; with the sweep enabled the item is also tracked. */
  function Register(s: State, q: Request, sweep: bool, now: int): (r: Registered)
    requires 0 <= now <= MaxTicks && ExpiryFits(q.config, now)
    ensures r.item.value == q.key
    ensures r.relationship == Relationship(q.routeKey, EntityList(q.resetBy), RouteList(q.resetBy))
    ensures r.state.store == s.store && r.state.outbox == s.outbox && r.state.created == s.created
    ensures forall t :: t in EntityList(q.resetBy) ==> q.key in BucketOf(r.state.index.entityRequests, t)
    ensures forall p :: p in RouteList(q.resetBy) ==> q.key in BucketOf(r.state.index.subRouteRequests, p)
    ensures forall t, w :: w != q.key ==>
      (w in BucketOf(r.state.index.entityRequests, t) <==> w in BucketOf(s.index.entityRequests, t))
    ensures forall p, w :: w != q.key ==>
      (w in BucketOf(r.state.index.subRouteRequests, p) <==> w in BucketOf(s.index.subRouteRequests, p))
    ensures sweep ==> q.key in r.state.requests && (q.key in s.requests ==> r.state.requests == s.requests)
    ensures sweep ==> r.state.requests == TryAdd(s.requests, r.item, r.relationship)
    ensures !sweep ==> r.state.requests == s.requests
    ensures Valid(s) ==> Valid(r.state)
  {
    var item := TrackedItem(q.key, q.config, now);
    var types := if q.resetBy.Some? then q.resetBy.value.entityTypes else None;
    var routes := if q.resetBy.Some? then RouteTags(q.resetBy.value.microServiceRoutes) else None;
    var (idx, rel) := NewRelationship(s.index, q.key, q.routeKey, types, routes);
    var requests := if sweep then TryAdd(s.requests, item, rel) else s.requests;
    Registered(s.(index := idx, requests := requests), item, rel)
  }

  /** The outcome of the first, unlocked read. */
  datatype FirstRead = Hit(state: State, raw: string) | Miss(state: State, registered: Registered)

  /** Everything before the lock: register, read, and on a miss `Remove` the
      key's tracked relationship. A hit returns the stored text as it is. */
  function BeginGetOrAdd(s: State, q: Request, sweep: bool, now: int): (r: FirstRead)
    requires 0 <= now <= MaxTicks && ExpiryFits(q.config, now)
    ensures r.Hit? <==> q.key in s.store
    ensures r.Hit? ==> r.raw == s.store[q.key].text
    ensures r.Hit? ==> forall t :: t in EntityList(q.resetBy) ==> q.key in BucketOf(r.state.index.entityRequests, t)
    ensures r.Hit? ==> r.state == Register(s, q, sweep, now).state
    ensures r.Miss? ==> r.registered == Register(s, q, sweep, now)
    ensures r.Miss? ==> r.state == Remove(r.registered.state, q.key)
    ensures r.Miss? ==> q.key !in r.state.requests
    ensures r.Miss? ==> r.state.outbox == s.outbox + Published(r.registered.state, q.key)
    ensures r.state.store == s.store && r.state.created == s.created
    ensures Valid(s) ==> Valid(r.state)
  {
    var reg := Register(s, q, sweep, now);
    if q.key in s.store then Hit(reg.state, s.store[q.key].text)
    else Miss(Remove(reg.state, q.key), reg)
  }

  /** With the sweep enabled, the first miss on a key nobody tracks registers
      and tracks it, and then `Remove` undoes the filing: the key leaves every
      bucket its reset rules named, and its own route is published. */
  lemma FirstMissUnlinksAndPublishes(s: State, q: Request, now: int)
    requires 0 <= now <= MaxTicks && ExpiryFits(q.config, now)
    requires q.key !in s.store && q.key !in s.requests
    ensures var r := BeginGetOrAdd(s, q, true, now);
      && r.Miss?
      && (forall t :: t in EntityList(q.resetBy) ==> q.key !in BucketOf(r.state.index.entityRequests, t))
      && (forall p :: p in RouteList(q.resetBy) ==> q.key !in BucketOf(r.state.index.subRouteRequests, p))
      && r.state.outbox == s.outbox + (if IsNullOrWhiteSpace(q.routeKey) then [] else [q.routeKey.value])
  {
  }

  /** What the value factory did. */
  datatype Produced = Produced(value: Option<string>) | Threw

  datatype Outcome = Returned(value: Option<string>) | Failed

  /** A call's final state, its outcome and whether it ran the value factory. */
  datatype Completion = Completion(state: State, outcome: Outcome, invoked: bool)

  /** Inside the per-key lock: read again; on a miss run the factory, store its
      encoded value with the configured expiry and flags, track the item and
      return the decoded value. A factory exception leaves the state alone. */
  function FinishGetOrAdd(s: State, q: Request, reg: Registered, produced: Produced): (r: Completion)
    requires reg.item.value == q.key
    ensures q.key in s.store ==> r == Completion(s, Returned(Some(s.store[q.key].text)), false)
    ensures q.key !in s.store ==> r.invoked
    ensures produced.Threw? && q.key !in s.store ==> r.state == s && r.outcome.Failed?
    ensures produced.Produced? && q.key !in s.store ==>
      && r.state.store == s.store[q.key := Stored(ToRedisValue(produced.value).text, ExpiryOf(q.config), FlagsOf(q.config))]
      && r.outcome == Returned(StringValue(Text(r.state.store[q.key].text)))
      && q.key in r.state.requests
      && r.state.requests == TryAdd(s.requests, reg.item, reg.relationship)
      && r.state.index == s.index && r.state.outbox == s.outbox
    ensures r.state.created == s.created
    ensures Valid(s) ==> Valid(r.state)
  {
    if q.key in s.store then Completion(s, Returned(Some(s.store[q.key].text)), false)
    else match produced
      case Threw => Completion(s, Failed, true)
      case Produced(v) =>
        var text := ToRedisValue(v).text;
        var s1 := s.(store := s.store[q.key := Stored(text, ExpiryOf(q.config), FlagsOf(q.config))],
                     requests := TryAdd(s.requests, reg.item, reg.relationship));
        Completion(s1, Returned(StringValue(Text(text))), true)
  }

  /** `GetOrAddAsync(key, routeKey, …)` for one caller that nobody interleaves
      with. The factory runs exactly when the key is missing; its value comes
      back through the null and empty sentinels unchanged. */
  function GetOrAdd(s: State, q: Request, sweep: bool, now: int, produced: Produced): (r: Completion)
    requires 0 <= now <= MaxTicks
    ensures !ExpiryFits(q.config, now) ==> r == Completion(s, Failed, false)
    ensures r.invoked <==> ExpiryFits(q.config, now) && q.key !in s.store
    ensures ExpiryFits(q.config, now) && q.key in s.store ==> r.outcome == Returned(Some(s.store[q.key].text))
    ensures r.invoked && produced.Produced? ==>
      && q.key in r.state.store && q.key in r.state.requests
      && r.state.store[q.key].expiry == ExpiryOf(q.config) && r.state.store[q.key].flags == FlagsOf(q.config)
      && r.outcome == Returned(StringValue(Text(r.state.store[q.key].text)))
    ensures r.invoked && produced.Produced? && (produced.value.None? || produced.value == Some("")) ==>
      r.outcome == Returned(produced.value)
    ensures r.invoked && produced.Produced? && !IsNullOrWhiteSpace(produced.value) && !IsMarkerText(produced.value.value) ==>
      r.outcome == Returned(produced.value)
    ensures forall k :: k != q.key ==> (k in r.state.store <==> k in s.store)
    ensures Valid(s) ==> Valid(r.state)
  {
    if !ExpiryFits(q.config, now) then Completion(s, Failed, false)
    else match BeginGetOrAdd(s, q, sweep, now)
      case Hit(s1, raw) => Completion(s1, Returned(Some(raw)), false)
      case Miss(s1, reg) =>
        RoundTrip(if produced.Produced? then produced.value else None);
        FinishGetOrAdd(s1, q, reg, produced)
  }

  /** `GetOrAddAsync(redisKey, …)`: the Redis key is the key's `ToString` and
      the route key its `RouteKey`, so every entry it adds sits under a
      lower-case key that extends the entry's route key and `"$"`. */
  function GetOrAddKey(s: State, k: RedisCacheKey, host: Host, resetBy: Option<RedisCacheResetBy>,
                       config: Option<RedisConfiguration>, sweep: bool, now: int, produced: Produced): (r: Completion)
    requires 0 <= now <= MaxTicks
    ensures forall key :: key in r.state.store && key !in s.store ==>
      IsLower(key) && CreateRouteKey(k.serviceName, k.httpMethod, k.route) + "$" <= key
  {
    GetOrAdd(s, Request(ToString(k, host), RouteKey(k), resetBy, config), sweep, now, produced)
  }

  /** Two callers miss the same key before either takes the lock: the first
      runs the factory, the second finds the entry on its second read and does
      not. Both return the same value once the second one's text is decoded. */
  lemma SingleFlight(s: State, q: Request, sweep: bool, nowA: int, nowB: int, v: Option<string>, other: Produced)
    requires q.key !in s.store
    requires 0 <= nowA <= MaxTicks && ExpiryFits(q.config, nowA)
    requires 0 <= nowB <= MaxTicks && ExpiryFits(q.config, nowB)
    ensures var a := BeginGetOrAdd(s, q, sweep, nowA);
      var b := BeginGetOrAdd(a.state, q, sweep, nowB);
      a.Miss? && b.Miss? &&
      var fa := FinishGetOrAdd(b.state, q, a.registered, Produced(v));
      var fb := FinishGetOrAdd(fa.state, q, b.registered, other);
      && fa.invoked && !fb.invoked
      && fb.state == fa.state
      && fa.outcome.Returned? && fb.outcome.Returned? && fb.outcome.value.Some?
      && StringValue(Text(fb.outcome.value.value)) == fa.outcome.value
  {
  }

  /** An entry read on the first try was filed under its entity types before
      the read, so a later save of one of those types resets it. */
  lemma HitThenSaveResets(s: State, q: Request, sweep: bool, now: int, t: EntityType)
    requires 0 <= now <= MaxTicks && ExpiryFits(q.config, now)
    requires s.created && q.key in s.store && t in EntityList(q.resetBy)
    ensures var c := GetOrAdd(s, q, sweep, now, Threw);
      q.key in c.state.store && q.key !in AfterSaveChanges(c.state, Some([t])).state.store
  {
    var c := GetOrAdd(s, q, sweep, now, Threw);
    assert q.key in BucketOf(c.state.index.entityRequests, t);
    EntityResetPrecise(c.state, [t], q.key);
  }
}

=== FILE: mutable_item.dfy ===
/** `MutableItem<T>`: a value with creation and update instants, compared by
    value only, and `MutableItemComparer<T>`. Instants are ticks. */
module MutableItems {
  import opened Wrappers

  datatype MutableItem<T> = MutableItem(value: T, createTime: int, updateTime: int)

  /** The constructor: created at `now`, or at the clock's `utcNow` when no
      instant is given; not yet updated. */
  function NewMutableItem<T>(value: T, now: Option<int>, utcNow: int): (item: MutableItem<T>)
    ensures item.value == value
    ensures item.updateTime == item.createTime
    ensures item.createTime == now.GetOr(utcNow)
  {
    var created := if now.Some? then now.value else utcNow;
    MutableItem(value, created, created)
  }

  /** `Equals`: two items are equal when their values are. */
  predicate ItemEquals<T(==)>(a: MutableItem<T>, b: MutableItem<T>) {
    a.value == b.value
  }

  /** `GetHashCode`: the value's hash. */
  function ItemHash<T>(item: MutableItem<T>, hash: T -> int): int {
    hash(item.value)
  }

  /** Equality and hashing ignore both instants, and equal items hash alike. */
  lemma EqualityIgnoresTimes<T>(a: MutableItem<T>, b: MutableItem<T>, hash: T -> int)
    ensures ItemEquals(a, b) <==> ItemEquals(a.(createTime := b.createTime, updateTime := b.updateTime), b)
    ensures ItemEquals(a, b) ==> ItemHash(a, hash) == ItemHash(b, hash)
    ensures ItemHash(a, hash) == ItemHash(a.(createTime := 0, updateTime := 0), hash)
  {
  }

  /** The implicit conversion from a value: an item created now. */
  function FromValue<T>(value: T, utcNow: int): (item: MutableItem<T>)
    ensures item.value == value && item.createTime == item.updateTime == utcNow
  {
    NewMutableItem(value, None, utcNow)
  }

  /** The implicit conversion to a value. */
  function ToValue<T>(item: MutableItem<T>): T {
    item.value
  }

  /** Converting a value to an item and back gives the value. */
  lemma ConversionRoundTrip<T>(value: T, utcNow: int)
    ensures ToValue(FromValue(value, utcNow)) == value
  {
  }

  /** `MutableItemComparer.Equals`: false when either side is `null` (both
      `null` included), otherwise the inner comparer on the values. */
  function ComparerEquals<T>(x: Option<MutableItem<T>>, y: Option<MutableItem<T>>, inner: (T, T) -> bool): (r: bool)
    ensures x.None? || y.None? ==> !r
    ensures x.Some? && y.Some? ==> (r <==> inner(x.value.value, y.value.value))
  {
    x.Some? && y.Some? && inner(x.value.value, y.value.value)
  }

  /** A dictionary keyed by items under an ordinal comparer holds one entry per
      value: `map` from the value. `TryAdd` keeps an existing entry. */
  function TryAdd<T(==), V>(m: map<T, (MutableItem<T>, V)>, item: MutableItem<T>, v: V): (r: map<T, (MutableItem<T>, V)>)
    ensures item.value in r
    ensures item.value in m ==> r == m
    ensures item.value !in m ==> r == m[item.value := (item, v)]
  {
    if item.value in m then m else m[item.value := (item, v)]
  }

  /** Adding an item equal to a present one, whatever its instants, changes nothing. */
  lemma TryAddKeepsFirst<T, V>(m: map<T, (MutableItem<T>, V)>, first: MutableItem<T>, second: MutableItem<T>, v: V, w: V)
    requires ItemEquals(first, second)
    ensures TryAdd(TryAdd(m, first, v), second, w) == TryAdd(m, first, v)
  {
  }
}

=== FILE: relationships.dfy ===
/** `RedisKeyRelationships`: the reverse index from entity types and
    dependency routes to cache keys, and one key's registration in it.

    A `HashSet<string>` bucket is a sequence without duplicates, enumerated in
    insertion order. A bucket the dictionary has not created yet reads as
    empty; `GetOrAdd` on the dictionary creates it. */
module KeyRelationships {
  import opened Wrappers
  import opened Text
  import opened ResetBy

  type Bucket = seq<string>

  ghost predicate NoDup(b: seq<string>) {
    forall i, j :: 0 <= i < j < |b| ==> b[i] != b[j]
  }

  /** `HashSet.Add`: appends when absent. */
  function Insert(b: Bucket, v: string): (r: Bucket)
    ensures forall w :: w in r <==> w in b || w == v
    ensures v in b ==> r == b
    ensures NoDup(b) ==> NoDup(r)
  {
    if v in b then b else b + [v]
  }

  /** `HashSet.Remove`. */
  function Delete(b: Bucket, v: string): (r: Bucket)
    ensures forall w :: w in r <==> w in b && w != v
    ensures v !in b ==> r == b
    ensures NoDup(b) ==> NoDup(r)
  {
    if b == [] then []
    else
      assert forall w :: w in b <==> w == b[0] || w in b[1..];
      var rest := Delete(b[1..], v);
      if b[0] == v then rest
      else
        assert NoDup(b) ==> b[0] !in b[1..];
        [b[0]] + rest
  }

  /** The bucket under `k`, empty when not created yet. */
  function BucketOf<K>(m: map<K, Bucket>, k: K): Bucket {
    if k in m then m[k] else []
  }

  /** Every bucket of a dictionary is duplicate-free. */
  ghost predicate Buckets<K>(m: map<K, Bucket>) {
    forall k :: k in m ==> NoDup(m[k])
  }

  /** The two static dictionaries. */
  datatype Index = Index(entityRequests: map<EntityType, Bucket>, subRouteRequests: map<string, Bucket>)

  ghost predicate ValidIndex(idx: Index) {
    Buckets(idx.entityRequests) && Buckets(idx.subRouteRequests)
  }

  const EmptyIndex: Index := Index(map[], map[])

  /** `Add` for every key of `ks`, in order. */
  function AddAll<K(!new)>(m: map<K, Bucket>, ks: seq<K>, v: string): (r: map<K, Bucket>)
    ensures forall k :: v in BucketOf(r, k) <==> v in BucketOf(m, k) || k in ks
    ensures forall k :: k !in ks ==> BucketOf(r, k) == BucketOf(m, k)
    ensures forall k, w :: w != v ==> (w in BucketOf(r, k) <==> w in BucketOf(m, k))
    ensures Buckets(m) ==> Buckets(r)
    decreases |ks|
  {
    if ks == [] then m
    else
      var m' := m[ks[0] := Insert(BucketOf(m, ks[0]), v)];
      assert forall k :: k in ks <==> k == ks[0] || k in ks[1..];
      AddAll(m', ks[1..], v)
  }

  /** `Remove` for every key of `ks`, in order. */
  function RemoveAll<K(!new)>(m: map<K, Bucket>, ks: seq<K>, v: string): (r: map<K, Bucket>)
    ensures forall k :: k in ks ==> v !in BucketOf(r, k)
    ensures forall k :: k !in ks ==> BucketOf(r, k) == BucketOf(m, k)
    ensures forall k, w :: w != v ==> (w in BucketOf(r, k) <==> w in BucketOf(m, k))
    ensures Buckets(m) ==> Buckets(r)
    decreases |ks|
  {
    if ks == [] then m
    else
      var m' := m[ks[0] := Delete(BucketOf(m, ks[0]), v)];
      assert forall k :: k in ks <==> k == ks[0] || k in ks[1..];
      RemoveAll(m', ks[1..], v)
  }

  /** A registered request: the route it publishes when reset, and the
      entity types and dependency routes it was registered under. */
  datatype Relationship = Relationship(pubRoute: Option<string>, entityTypes: seq<EntityType>, subRoutes: seq<string>)

  /** The constructor: `null` lists become empty ones; the request is added to
      the bucket of every listed entity type and every listed route. */
  function NewRelationship(idx: Index, request: string, pubRoute: Option<string>,
                           entityTypes: Option<seq<EntityType>>, subRoutes: Option<seq<string>>): (r: (Index, Relationship))
    ensures r.1.pubRoute == pubRoute
    ensures r.1.entityTypes == entityTypes.GetOr([]) && r.1.subRoutes == subRoutes.GetOr([])
    ensures forall t :: request in BucketOf(r.0.entityRequests, t) <==>
      request in BucketOf(idx.entityRequests, t) || t in r.1.entityTypes
    ensures forall p :: request in BucketOf(r.0.subRouteRequests, p) <==>
      request in BucketOf(idx.subRouteRequests, p) || p in r.1.subRoutes
    ensures forall t, w :: w != request ==>
      (w in BucketOf(r.0.entityRequests, t) <==> w in BucketOf(idx.entityRequests, t))
    ensures forall p, w :: w != request ==>
      (w in BucketOf(r.0.subRouteRequests, p) <==> w in BucketOf(idx.subRouteRequests, p))
    ensures ValidIndex(idx) ==> ValidIndex(r.0)
  {
    var types := entityTypes.GetOr([]);
    var routes := subRoutes.GetOr([]);
    var idx' := Index(AddAll(idx.entityRequests, types, request), AddAll(idx.subRouteRequests, routes, request));
    (idx', Relationship(pubRoute, types, routes))
  }

  /** `Remove(request)`: takes the request out of exactly the buckets the
      relationship names and yields the routes to publish: the own route once
      when it is not blank, nothing otherwise. */
  function RemoveRequest(idx: Index, rel: Relationship, request: string): (r: (Index, seq<string>))
    ensures forall t :: t in rel.entityTypes ==> request !in BucketOf(r.0.entityRequests, t)
    ensures forall p :: p in rel.subRoutes ==> request !in BucketOf(r.0.subRouteRequests, p)
    ensures forall t :: t !in rel.entityTypes ==> BucketOf(r.0.entityRequests, t) == BucketOf(idx.entityRequests, t)
    ensures forall p :: p !in rel.subRoutes ==> BucketOf(r.0.subRouteRequests, p) == BucketOf(idx.subRouteRequests, p)
    ensures forall t, w :: w != request ==>
      (w in BucketOf(r.0.entityRequests, t) <==> w in BucketOf(idx.entityRequests, t))
    ensures forall p, w :: w != request ==>
      (w in BucketOf(r.0.subRouteRequests, p) <==> w in BucketOf(idx.subRouteRequests, p))
    ensures r.1 == if IsNullOrWhiteSpace(rel.pubRoute) then [] else [rel.pubRoute.value]
    ensures ValidIndex(idx) ==> ValidIndex(r.0)
  {
    var idx' := Index(RemoveAll(idx.entityRequests, rel.entityTypes, request),
                      RemoveAll(idx.subRouteRequests, rel.subRoutes, request));
    (idx', if IsNullOrWhiteSpace(rel.pubRoute) then [] else [rel.pubRoute.value])
  }

  /** Registering a request that every named bucket already holds changes no bucket. */
  lemma {:induction false} AddPresentIsNoOp<K(!new)>(m: map<K, Bucket>, ks: seq<K>, v: string)
    requires forall k :: k in ks ==> v in BucketOf(m, k)
    ensures forall k :: BucketOf(AddAll(m, ks, v), k) == BucketOf(m, k)
    decreases |ks|
  {
    if ks != [] {
      var m' := m[ks[0] := Insert(BucketOf(m, ks[0]), v)];
      assert forall k :: BucketOf(m', k) == BucketOf(m, k);
      AddPresentIsNoOp(m', ks[1..], v);
    }
  }
}

=== FILE: reset_by.dfy ===
/** `RedisCacheResetBy` and `MicroServiceRoute`: what invalidates an entry. */
module ResetBy {
  import opened Wrappers
  import opened Text
  import opened CacheKey

  /** A domain-entity type (a `System.Type`), identified by its full name. */
  datatype EntityType = EntityType(fullName: string)

  /** A route of some service that an entry depends on. `httpMethod` is the
      text of the `HttpMethod` (its `ToString()`). */
  datatype MicroServiceRoute = MicroServiceRoute(serviceName: Option<string>, httpMethod: string, route: Option<string>)

  /** The invalidation specification of a cached action. */
  datatype RedisCacheResetBy = RedisCacheResetBy(
    entityTypes: Option<seq<EntityType>>,
    microServiceRoutes: Option<seq<MicroServiceRoute>>)

  /** A freshly constructed `RedisCacheResetBy`: both lists `null`. */
  const EmptyResetBy: RedisCacheResetBy := RedisCacheResetBy(None, None)

  /** The primary constructor keeps its three arguments as they are. */
  function NewMicroServiceRoute(serviceName: Option<string>, httpMethod: string, route: Option<string>): (r: MicroServiceRoute)
    ensures r.serviceName == serviceName && r.httpMethod == httpMethod && r.route == route
  {
    MicroServiceRoute(serviceName, httpMethod, route)
  }

  /** `MicroServiceRoute.ToString`: the dependency tag, built by `CreateRouteKey`. */
  function RouteTag(r: MicroServiceRoute): (tag: string)
    ensures IsLower(tag)
    ensures |tag| > 0 && tag[|tag| - 1] != '/'
  {
    CreateRouteKey(r.serviceName, Some(r.httpMethod), r.route)
  }

  /** The tag of a dependency equals the route key of a cache key with the same
      service, method and non-blank route, so resetting one cascades to the
      other. */
  lemma TagMatchesRouteKey(r: MicroServiceRoute, k: RedisCacheKey)
    requires k.serviceName == r.serviceName && k.httpMethod == Some(r.httpMethod) && k.route == r.route
    requires !IsNullOrWhiteSpace(r.route)
    ensures RouteKey(k) == Some(RouteTag(r))
  {
  }

  /** The method's letter case does not matter to the tag. */
  lemma TagIgnoresMethodCase(r: MicroServiceRoute, verb: string)
    requires EqualsIgnoreCase(verb, r.httpMethod)
    ensures RouteTag(r.(httpMethod := verb)) == RouteTag(r)
  {
    RouteKeyIgnoresCase(r.serviceName, Some(verb), r.route, r.serviceName, Some(r.httpMethod), r.route);
  }

  /** `resetBy?.MicroServiceRoutes?.Select(s => s.ToString()).ToList()`. */
  function RouteTags(routes: Option<seq<MicroServiceRoute>>): (r: Option<seq<string>>)
    ensures r.None? <==> routes.None?
    ensures r.Some? ==> |r.value| == |routes.value|
    ensures r.Some? ==> forall i :: 0 <= i < |r.value| ==> r.value[i] == RouteTag(routes.value[i])
  {
    if routes.None? then None
    else Some(seq(|routes.value|, i requires 0 <= i < |routes.value| => RouteTag(routes.value[i])))
  }
}

=== FILE: settings.dfy ===
/** `RedisCacheSettings`, `RedisConfiguration` and the `GlobalVars` getter that
    never yields `null`. Time spans are ticks. */
module Settings {
  import opened Wrappers

  /** StackExchange.Redis `CommandFlags`, a bit set; 0 is `CommandFlags.None`. */
  type CommandFlags = nat

  const FlagsNone: CommandFlags := 0

  /** Per-action cache configuration. */
  datatype RedisConfiguration = RedisConfiguration(
    useExtraQueryStringAsRedisKey: bool,
    expiry: Option<int>,
    commandFlags: Option<CommandFlags>)

  /** `new RedisConfiguration()`: no query in the key, no expiry, no flags. */
  function NewRedisConfiguration(): (c: RedisConfiguration)
    ensures !c.useExtraQueryStringAsRedisKey && c.expiry.None? && c.commandFlags.None?
  {
    RedisConfiguration(false, None, None)
  }

  /** Global settings. `redisConfigurationField` is the backing field of the
      `RedisConfiguration` property. */
  datatype RedisCacheSettings = RedisCacheSettings(
    applyToAllGetRequests: bool,
    autoCleanupInterval: Option<int>,
    redisConfigurationField: Option<RedisConfiguration>)

  /** `new RedisCacheSettings()`: caching only where an attribute asks for it,
      no sweep, no configuration set. */
  function NewRedisCacheSettings(): (s: RedisCacheSettings)
    ensures !s.applyToAllGetRequests && s.autoCleanupInterval.None?
    ensures GetRedisConfiguration(s) == NewRedisConfiguration()
  {
    RedisCacheSettings(false, None, None)
  }

  /** The `RedisConfiguration` getter: the stored configuration, or a fresh
      default while none is set. */
  function GetRedisConfiguration(s: RedisCacheSettings): (c: RedisConfiguration)
    ensures s.redisConfigurationField.None? ==> c == NewRedisConfiguration()
    ensures s.redisConfigurationField.Some? ==> c == s.redisConfigurationField.value
  {
    s.redisConfigurationField.GetOr(NewRedisConfiguration())
  }

  /** The `RedisConfiguration` setter; setting `null` restores the default. */
  function SetRedisConfiguration(s: RedisCacheSettings, c: Option<RedisConfiguration>): RedisCacheSettings {
    s.(redisConfigurationField := c)
  }

  /** Reading after a set returns what was set, or the default after `null`. */
  lemma SetThenGetConfiguration(s: RedisCacheSettings, c: Option<RedisConfiguration>)
    ensures GetRedisConfiguration(SetRedisConfiguration(s, c)) == c.GetOr(NewRedisConfiguration())
  {
  }

  /** The `GlobalVars.RedisCacheSettings` getter: fresh defaults while unset. */
  function GlobalSettings(field: Option<RedisCacheSettings>): (s: RedisCacheSettings)
    ensures field.None? ==> s == NewRedisCacheSettings()
    ensures field.Some? ==> s == field.value
  {
    field.GetOr(NewRedisCacheSettings())
  }

  /** Whether the sweep timer runs and lookups pre-track their keys: exactly
      when a cleanup interval is configured, never when settings are unset. */
  function SweepEnabled(field: Option<RedisCacheSettings>): (r: bool)
    ensures field.None? ==> !r
    ensures r <==> field.Some? && field.value.autoCleanupInterval.Some?
  {
    GlobalSettings(field).autoCleanupInterval.Some?
  }
}

=== FILE: sorting.dfy ===
/** Stable insertion sort by a string key under an abstract comparison.

    LINQ's `OrderBy` is a stable sort driven by `Comparer<string>.Default`, a
    culture-sensitive comparison the model cannot see. The comparison is
    therefore a parameter `precedes`, with `precedes(a, b)` read as "a sorts
    no later than b". */
module Sorting {

  /** `precedes` is a total order on strings: total, antisymmetric, transitive. */
  ghost predicate TotalOrder(precedes: (string, string) -> bool) {
    && (forall a, b :: precedes(a, b) || precedes(b, a))
    && (forall a, b :: precedes(a, b) && precedes(b, a) ==> a == b)
    && (forall a, b, c :: precedes(a, b) && precedes(b, c) ==> precedes(a, c))
  }

  /** The keys of `s` appear in non-decreasing order. */
  ghost predicate SortedBy<T>(s: seq<T>, key: T -> string, precedes: (string, string) -> bool) {
    forall i, j :: 0 <= i < j < |s| ==> precedes(key(s[i]), key(s[j]))
  }

  /** Elements of `s` with equal keys are equal (a dictionary's entries, say). */
  ghost predicate KeyDetermines<T>(s: seq<T>, key: T -> string) {
    forall i, j :: 0 <= i < |s| && 0 <= j < |s| && key(s[i]) == key(s[j]) ==> s[i] == s[j]
  }

  /** The identity key, for sorting strings by themselves. */
  function Self(s: string): string {
    s
  }

  /** Inserts `x` in front of the first element whose key it precedes. */
  function InsertBy<T>(x: T, s: seq<T>, key: T -> string, precedes: (string, string) -> bool): (r: seq<T>)
    ensures multiset(r) == multiset(s) + multiset{x}
    ensures |r| == |s| + 1
  {
    if s == [] then [x]
    else if precedes(key(x), key(s[0])) then [x] + s
    else
      assert s == [s[0]] + s[1..];
      [s[0]] + InsertBy(x, s[1..], key, precedes)
  }

  /** Every element after the first of a sorted sequence sorts no earlier. */
  lemma HeadBoundsTail<T>(s: seq<T>, key: T -> string, precedes: (string, string) -> bool)
    requires SortedBy(s, key, precedes) && s != []
    ensures forall y :: y in s[1..] ==> precedes(key(s[0]), key(y))
  {
    forall y | y in s[1..] ensures precedes(key(s[0]), key(y)) {
      var k :| 0 <= k < |s[1..]| && s[1..][k] == y;
      assert s[k + 1] == y;
    }
  }

  /** The elements of an insertion are the inserted one and the old ones. */
  lemma InsertByMembers<T>(x: T, s: seq<T>, key: T -> string, precedes: (string, string) -> bool)
    ensures forall y :: y in InsertBy(x, s, key, precedes) ==> y == x || y in s
  {
    forall y | y in InsertBy(x, s, key, precedes) ensures y == x || y in s {
      assert y in multiset(InsertBy(x, s, key, precedes));
    }
  }

  /** Inserting into a sorted sequence keeps it sorted. */
  lemma {:induction false} InsertBySorted<T>(x: T, s: seq<T>, key: T -> string, precedes: (string, string) -> bool)
    requires TotalOrder(precedes)
    requires SortedBy(s, key, precedes)
    ensures SortedBy(InsertBy(x, s, key, precedes), key, precedes)
  {
    if s != [] && !precedes(key(x), key(s[0])) {
      var rest := InsertBy(x, s[1..], key, precedes);
      InsertBySorted(x, s[1..], key, precedes);
      HeadBoundsTail(s, key, precedes);
      InsertByMembers(x, s[1..], key, precedes);
      var r := [s[0]] + rest;
      forall i, j | 0 <= i < j < |r| ensures precedes(key(r[i]), key(r[j])) {
        if i == 0 {
          assert r[j] in rest;
        } else {
          assert r[i] == rest[i - 1] && r[j] == rest[j - 1];
        }
      }
    } else if s != [] {
      var r := [x] + s;
      forall i, j | 0 <= i < j < |r| ensures precedes(key(r[i]), key(r[j])) {
        if i == 0 && j > 1 {
          assert precedes(key(s[0]), key(s[j - 1]));
        }
      }
    }
  }

  /** `OrderBy(key)`: a stable sort of `s` by `key`. */
  function SortBy<T>(s: seq<T>, key: T -> string, precedes: (string, string) -> bool): (r: seq<T>)
    ensures multiset(r) == multiset(s)
    ensures |r| == |s|
  {
    if s == [] then []
    else
      assert s == [s[0]] + s[1..];
      InsertBy(s[0], SortBy(s[1..], key, precedes), key, precedes)
  }

  /** Under a total order, `SortBy` yields a sorted sequence. */
  lemma {:induction false} SortBySorted<T>(s: seq<T>, key: T -> string, precedes: (string, string) -> bool)
    requires TotalOrder(precedes)
    ensures SortedBy(SortBy(s, key, precedes), key, precedes)
  {
    if s != [] {
      SortBySorted(s[1..], key, precedes);
      InsertBySorted(s[0], SortBy(s[1..], key, precedes), key, precedes);
    }
  }

  /** Two sorted arrangements of the same non-empty elements start with the
      same element, provided equal keys mean equal elements. */
  lemma SortedHeads<T>(a: seq<T>, b: seq<T>, key: T -> string, precedes: (string, string) -> bool)
    requires TotalOrder(precedes)
    requires SortedBy(a, key, precedes) && SortedBy(b, key, precedes)
    requires multiset(a) == multiset(b) && a != []
    requires KeyDetermines(a, key)
    ensures b != [] && a[0] == b[0]
  {
    assert a[0] in multiset(b);
    var j :| 0 <= j < |b| && b[j] == a[0];
    assert b[0] in multiset(a);
    var i :| 0 <= i < |a| && a[i] == b[0];
    if i != 0 { assert precedes(key(a[0]), key(a[i])); }
    if j != 0 { assert precedes(key(b[0]), key(b[j])); }
    assert key(a[0]) == key(b[0]);
  }

  /** Dropping the equal heads of two arrangements leaves arrangements of the
      same remaining elements, still sorted and still keyed uniquely. */
  lemma DropHeads<T>(a: seq<T>, b: seq<T>, key: T -> string, precedes: (string, string) -> bool)
    requires SortedBy(a, key, precedes) && SortedBy(b, key, precedes)
    requires multiset(a) == multiset(b) && a != [] && b != [] && a[0] == b[0]
    requires KeyDetermines(a, key)
    ensures SortedBy(a[1..], key, precedes) && SortedBy(b[1..], key, precedes)
    ensures multiset(a[1..]) == multiset(b[1..])
    ensures KeyDetermines(a[1..], key)
  {
    TailSorted(a, key, precedes);
    TailSorted(b, key, precedes);
    forall i, j | 0 <= i < |a[1..]| && 0 <= j < |a[1..]| && key(a[1..][i]) == key(a[1..][j])
      ensures a[1..][i] == a[1..][j]
    {
      assert a[1..][i] == a[i + 1] && a[1..][j] == a[j + 1];
    }
    MultisetTail(a);
    MultisetTail(b);
  }

  /** The tail of a sorted sequence is sorted. */
  lemma TailSorted<T>(s: seq<T>, key: T -> string, precedes: (string, string) -> bool)
    requires SortedBy(s, key, precedes) && s != []
    ensures SortedBy(s[1..], key, precedes)
  {
    forall i, j | 0 <= i < j < |s[1..]| ensures precedes(key(s[1..][i]), key(s[1..][j])) {
      assert s[1..][i] == s[i + 1] && s[1..][j] == s[j + 1];
    }
  }

  /** The tail's elements are the sequence's minus its head. */
  lemma MultisetTail<T>(s: seq<T>)
    requires s != []
    ensures multiset(s[1..]) == multiset(s) - multiset{s[0]}
  {
    assert s == [s[0]] + s[1..];
  }

  /** Two sorted arrangements of the same elements coincide, provided equal
      keys mean equal elements. This is what makes sorting erase the order of
      its input. */
  lemma {:induction false} SortedUnique<T>(a: seq<T>, b: seq<T>, key: T -> string, precedes: (string, string) -> bool)
    requires TotalOrder(precedes)
    requires SortedBy(a, key, precedes) && SortedBy(b, key, precedes)
    requires multiset(a) == multiset(b)
    requires KeyDetermines(a, key)
    ensures a == b
  {
    if a == [] {
      assert |b| == |multiset(b)| == 0;
    } else {
      SortedHeads(a, b, key, precedes);
      DropHeads(a, b, key, precedes);
      SortedUnique(a[1..], b[1..], key, precedes);
      assert a == [a[0]] + a[1..] && b == [b[0]] + b[1..];
    }
  }

  /** Sorting gives the same sequence for any two arrangements of the same
      elements: the input order is forgotten. */
  lemma SortByPermutation<T>(s: seq<T>, t: seq<T>, key: T -> string, precedes: (string, string) -> bool)
    requires TotalOrder(precedes)
    requires multiset(s) == multiset(t)
    requires KeyDetermines(s, key)
    ensures SortBy(s, key, precedes) == SortBy(t, key, precedes)
  {
    var a := SortBy(s, key, precedes);
    var b := SortBy(t, key, precedes);
    SortBySorted(s, key, precedes);
    SortBySorted(t, key, precedes);
    forall i, j | 0 <= i < |a| && 0 <= j < |a| && key(a[i]) == key(a[j])
      ensures a[i] == a[j]
    {
      assert a[i] in multiset(s) && a[j] in multiset(s);
      var i' :| 0 <= i' < |s| && s[i'] == a[i];
      var j' :| 0 <= j' < |s| && s[j'] == a[j];
    }
    SortedUnique(a, b, key, precedes);
  }
}

=== FILE: text.dfy ===
/** Character and string helpers of the .NET base library that the cache relies on:
    `char.IsWhiteSpace`, `string.IsNullOrWhiteSpace`, `ToLowerInvariant`,
    `StringComparison.OrdinalIgnoreCase` and `TrimEnd`. */
module Text {
  import opened Wrappers

  /** `char.IsWhiteSpace`: the Unicode space, line and paragraph separators
      plus the control characters U+0009..U+000D and U+0085. */
  predicate IsWhiteSpace(c: char) {
    || ('\t' <= c <= '\r')
    || c == ' '
    || c == '\U{0085}'
    || c == '\U{00A0}'
    || c == '\U{1680}'
    || ('\U{2000}' <= c <= '\U{200A}')
    || c == '\U{2028}'
    || c == '\U{2029}'
    || c == '\U{202F}'
    || c == '\U{205F}'
    || c == '\U{3000}'
  }

  /** `string.IsNullOrWhiteSpace`. */
  predicate IsNullOrWhiteSpace(s: Option<string>) {
    s.None? || forall i :: 0 <= i < |s.value| ==> IsWhiteSpace(s.value[i])
  }

  /** Interpolating a string into `$"..."` writes nothing for `null`. */
  function Render(s: Option<string>): string {
    s.GetOr("")
  }

  /** Invariant-culture lower-casing of one character (ASCII letters only). */
  function LowerChar(c: char): (d: char)
    ensures d == c || ('A' <= c <= 'Z' && d as int == c as int + 32)
    ensures !('A' <= d <= 'Z')
  {
    if 'A' <= c <= 'Z' then (c as int + 32) as char else c
  }

  /** `ToLowerInvariant`: maps every character independently. */
  function Lower(s: string): (r: string)
    ensures |r| == |s|
    ensures forall i :: 0 <= i < |s| ==> r[i] == LowerChar(s[i])
  {
    seq(|s|, i requires 0 <= i < |s| => LowerChar(s[i]))
  }

  /** A string that lower-casing leaves unchanged. */
  predicate IsLower(s: string) {
    forall i :: 0 <= i < |s| ==> LowerChar(s[i]) == s[i]
  }

  /** `a.Equals(b, StringComparison.OrdinalIgnoreCase)`. */
  predicate EqualsIgnoreCase(a: string, b: string) {
    Lower(a) == Lower(b)
  }

  /** `TrimEnd('/')`: drops every trailing slash. */
  function TrimEndSlash(s: string): (r: string)
    ensures |r| <= |s| && r == s[..|r|]
    ensures |r| == 0 || r[|r| - 1] != '/'
    ensures forall i :: |r| <= i < |s| ==> s[i] == '/'
  {
    if |s| > 0 && s[|s| - 1] == '/' then TrimEndSlash(s[..|s| - 1]) else s
  }

  /** Lower-casing yields a lower-case string, so it is idempotent. */
  lemma LowerIsLower(s: string)
    ensures IsLower(Lower(s))
    ensures Lower(Lower(s)) == Lower(s)
  {
  }

  /** Lower-casing distributes over concatenation. */
  lemma LowerConcat(a: string, b: string)
    ensures Lower(a + b) == Lower(a) + Lower(b)
  {
  }

  /** A string that is already lower-case is its own lower-casing. */
  lemma LowerOfLower(s: string)
    requires IsLower(s)
    ensures Lower(s) == s
  {
  }

  /** Lower-casing neither creates nor removes a slash. */
  lemma LowerKeepsSlash(c: char)
    ensures LowerChar(c) == '/' <==> c == '/'
  {
  }

  /** Appending slashes does not change what `TrimEnd('/')` leaves. */
  lemma {:induction false} TrimEndSlashAbsorbs(s: string, slashes: string)
    requires forall i :: 0 <= i < |slashes| ==> slashes[i] == '/'
    ensures TrimEndSlash(s + slashes) == TrimEndSlash(s)
    decreases |slashes|
  {
    if |slashes| > 0 {
      var shorter := slashes[..|slashes| - 1];
      assert (s + slashes)[..|s + slashes| - 1] == s + shorter;
      TrimEndSlashAbsorbs(s, shorter);
    } else {
      assert s + slashes == s;
    }
  }
}

=== FILE: wrappers.dfy ===
/** Nullable references of the source are modelled with `Option`. */
module Wrappers {

  /** `None` stands for a C# `null`. */
  datatype Option<+T> = None | Some(value: T) {

    /** The value, or `default` when this is `None` (the `??` operator). */
    function GetOr(default: T): T {
      match this
      case Some(v) => v
      case None => default
    }
  }
}
